=== FILE: README.md ===
# libquantify unit algebra in Dafny

This project models the core of libquantify, a C++ library of physical quantities. The core has three layers:

- **Dimension vector** (`DimensionVector`, dimensions.dfy): the seven exponents of the SI base dimensions, in the order length, mass, time, electric current, thermodynamic temperature, amount of substance, luminous intensity. Units multiply by adding exponents, divide by subtracting them and are raised to a power by scaling them.
- **Unit** (`Units`, unit.dfy): a name, a symbol, a dimension vector, a factor and an offset. A unit is the affine map `reference = factor * value + offset`. Two checked errors exist. `IncompatibleUnits` is raised when dimensions differ. `UnsupportedOperation` is raised when `power`, `*` or `/` is applied to a unit whose offset is not approximately 0.
- **Quantity** (`Quantities`, quantity.dfy): a value and its unit. Comparisons and `+`/`-` convert the right operand into the left unit, unless the two units are `Unit::equals`, in which case the raw values are used. `*` and `/` compose the units and never convert.

Supporting modules:

- `Utils` (utils.dfy) holds the absolute `DBL_EPSILON` tolerance, `round` and integer powers.
- `Decimal` (decimal.dfy) is the decimal text of an `int`. It is used in power names and the dimension-vector display.
- `StandardUnits` (standardunits.dfy) is the slice of the unit catalog the scenarios need.
- `DimensionExamples`, `UnitExamples` and `QuantityExamples` (examples_*.dfy) restate the library's test scenarios as lemmas.

Modelling choices:

- `double` is a mathematical `real`. `DBL_EPSILON` is exactly 2^-52. Equality with a tolerance is `|a - b| < DBL_EPSILON`.
- Exceptions are values: `Result<T> = Ok(value) | Err(error)`, with `Error = IncompatibleUnits(left, right) | UnsupportedOperation(unit, operation)`. The `assert...` members return a `Check` (`Pass` or `Fail(error)`).
- An exponent is stored in a `char`, whose signedness is up to the platform. The model assumes a signed 8-bit `char` with two's complement narrowing. Every result is narrowed back with `DimensionVector.Wrap`, modulo 256. So the algebraic laws hold for every input, with no range precondition. With an unsigned `char` the stored bytes would be the same, so `equals` would give the same answers. What would differ is the value a getter returns for a negative exponent, and the `(int)` conversion in the display (include/quantify/dimensions.h:81).
- The digits a `std::stringstream` writes for a `double` inside a name or symbol are not modelled. Each such operation takes a formatter `fmt: real -> string` as a parameter. The catalog renames every composed unit, so its formatter is immaterial (`Units.RenameForgetsLabel`).
- A division by zero in the source gives inf or NaN. The model excludes it with a `requires` that applies only on the branch that actually divides. A unit rejected as affine needs no such condition.

Two details of the code that the model keeps:

- `power`, `*` and `/` reject a unit only when its offset is at least `DBL_EPSILON` away from 0 (src/unit.cpp:80-94). A smaller non-zero offset passes the test and is dropped from the result.
- The dimension operations compute in 32-bit `int` and store each result in a `char` (include/quantify/dimensions.h:94), so exponents wrap around. The model makes that narrowing explicit; it does not model an overflow of the `int` computation itself (see `DimensionVector.Power` under "## Left out").

## Model

| member | source | states |
|---|---|---|
| Utils.AreEqual | include/quantify/utils.h:35 | `areEqual(a, b)` holds exactly when `a - b` lies strictly between -ε and ε |
| Utils.AreEqualReflexive | include/quantify/utils.h:35 | every value is within tolerance of itself |
| Utils.AreEqualSymmetric | include/quantify/utils.h:35 | the tolerance test does not depend on operand order |
| Utils.AreEqualShiftInvariant | include/quantify/utils.h:35 | the threshold is absolute: shifting both operands by the same amount never changes the verdict |
| Utils.AreEqualNotTransitive | include/quantify/utils.h:35 | 0 ≈ ε/2 and ε/2 ≈ ε but not 0 ≈ ε, so the tolerance is not an equivalence |
| Utils.Trunc | src/quantity.cpp:74 | the `(int)` cast of a double: the integer at most 1 away toward zero, never past the value |
| Utils.StdRound | include/quantify/utils.h:39 | `std::round`: an integer within 1/2 of the value, a tie going to the integer farther from zero |
| Utils.RoundAtScale | include/quantify/utils.h:39 | `std::round(a * f) / f` for a positive scale f: times f it is a whole number, the half-away-from-zero rounding of `a * f`, and it is within 1/(2f) of `a` |
| Utils.Round | include/quantify/utils.h:36-40 | `round(a, d)` times 10^d is a whole number, namely `a * 10^d` rounded half away from zero; so it is within half a unit of the d-th decimal of `a` |
| Utils.RoundIdempotent | include/quantify/utils.h:36-40 | rounding an already rounded value to the same number of decimals returns it unchanged |
| Utils.RealPow | src/unit.cpp:111 | `pow(x, n)` for an integer n: non-zero for a non-zero base and positive for a positive base; a negative power of 0 is excluded |
| Utils.PowNegate | src/unit.cpp:111 | `pow(x, -n)` is `1 / pow(x, n)` for a non-zero base |
| Utils.PowAdd | src/unit.cpp:111 | `pow(x, a) * pow(x, b) == pow(x, a + b)` for integer exponents of any sign and a non-zero base |
| Utils.PowMul | src/unit.cpp:111 | `pow(pow(x, n), m) == pow(x, n * m)` for any integer n, m and non-zero base |
| Decimal.IntToString | src/unit.cpp:105-109 | the text an int is streamed as: digits, with a leading '-' exactly when negative, and no leading zero (a text starting with '0' is "0" itself, and '-' is followed by a non-zero digit) |
| Decimal.ParseIntOfIntToString | include/quantify/dimensions.h:81 | reading the decimal text of an int back gives the int |
| Decimal.IntToStringInjective | include/quantify/dimensions.h:81 | distinct ints are written as distinct text |
| DimensionVector.Wrap | include/quantify/dimensions.h:94 | storing an int in a signed char keeps it modulo 256, and keeps it unchanged when it is in range |
| DimensionVector.Make | src/dimensions.cpp:30-39 | the i-th constructor argument is the exponent of axis i, and omitted arguments are 0 |
| DimensionVector.GetOfMake | src/dimensions.cpp:71-104 | each getter returns the exponent the constructor was given for its axis |
| DimensionVector.Set | src/dimensions.cpp:106-139 | a setter makes its own axis read back the new value and leaves the six other axes unchanged |
| DimensionVector.Equals | src/dimensions.cpp:141-144 | `equals` holds exactly when the two vectors are identical |
| DimensionVector.NotEquals | include/quantify/dimensions.h:73 | `!=` holds exactly when some axis differs |
| DimensionVector.MultiplyBy | src/dimensions.cpp:146-154 | each exponent of the product is the char sum of the operands' exponents |
| DimensionVector.DivideBy | src/dimensions.cpp:156-164 | each exponent of the quotient is the char difference of the operands' exponents |
| DimensionVector.Power | src/dimensions.cpp:166-174 | each exponent is scaled by n, in char arithmetic |
| DimensionVector.EqualsReflexive | src/dimensions.cpp:141-144 | every vector equals itself |
| DimensionVector.EqualsSymmetric | src/dimensions.cpp:141-144 | `equals` does not depend on operand order |
| DimensionVector.MultiplyByCommutative | src/dimensions.cpp:146-154 | `a * b == b * a` |
| DimensionVector.MultiplyByAssociative | src/dimensions.cpp:146-154 | `(a * b) * c == a * (b * c)`, wrap-around included |
| DimensionVector.MultiplyByZero | src/dimensions.cpp:146-154 | the dimensionless vector is the identity of `*` |
| DimensionVector.DivideBySelf | src/dimensions.cpp:156-164 | `a / a` is dimensionless |
| DimensionVector.DivideByUndoesMultiplyBy | src/dimensions.cpp:146-164 | `(a * b) / b == a` for all vectors, wrap-around included |
| DimensionVector.PowerOne | src/dimensions.cpp:166-174 | `power(1)` is the identity |
| DimensionVector.PowerZero | src/dimensions.cpp:166-174 | `power(0)` is dimensionless |
| DimensionVector.PowerOfPower | src/dimensions.cpp:166-174 | `a.power(n).power(m) == a.power(n * m)` for all integers |
| DimensionVector.PowerSuccessor | src/dimensions.cpp:146-174 | `a.power(n + 1) == a.power(n) * a` |
| DimensionVector.PowerMinusOne | src/dimensions.cpp:156-174 | `a.power(-1)` is the dimensionless vector divided by `a` |
| DimensionVector.Render | include/quantify/dimensions.h:76-88 | the display is bracketed: it starts with '[' and ends with ']' |
| DimensionVector.JoinInjective | include/quantify/dimensions.h:79-84 | a ", "-separated list of ints determines the list |
| DimensionVector.RenderInjective | include/quantify/dimensions.h:76-88 | distinct vectors are displayed differently |
| Units.DefaultUnit | include/quantify/unit.h:37 | `Unit()`: empty name and symbol, every exponent 0, factor 1 and offset 0, so its affine map is the identity |
| Units.Rename | include/quantify/unit.h:38 | the renaming constructor takes the new name and symbol and the base unit's dimensions, factor and offset |
| Units.Render | include/quantify/unit.h:88-92 | a unit is printed as its symbol |
| Units.IsCompatibleTo | src/unit.cpp:96-99 | compatible exactly when the dimension vectors are equal |
| Units.AssertCompatibility | src/unit.cpp:72-78 | passes exactly for equal dimensions, and otherwise fails with `IncompatibleUnits(this, other)` |
| Units.AssertCanMultiply | src/unit.cpp:80-86 | passes exactly when the offset is strictly within ε of 0, and otherwise fails with `UnsupportedOperation(this, "*")` |
| Units.AssertCanDivide | src/unit.cpp:88-94 | the same test, failing with operator "/" |
| Units.Power | src/unit.cpp:101-112 | fails with `UnsupportedOperation(u, "*")` exactly for an affine unit; otherwise dimensions `power(n)`, factor `factor^n`, offset 0, name and symbol suffixed `^n` |
| Units.Equals | src/unit.cpp:114-117 | equal exactly when dimensions are equal and factors are within ε; the offset takes no part |
| Units.LessThan | src/unit.cpp:119-122 | `<` exactly when compatible and the factor is smaller |
| Units.GreaterThan | src/unit.cpp:124-127 | `>` exactly when compatible and the factor is larger |
| Units.NotEquals | include/quantify/unit.h:62 | `!=` exactly when dimensions differ or factors are ε or more apart |
| Units.LessOrEqual | include/quantify/unit.h:64 | `<=` exactly when compatible and the factor is below the other's plus ε |
| Units.GreaterOrEqual | include/quantify/unit.h:66 | `>=` exactly when compatible and the factor is above the other's minus ε |
| Units.Add | src/unit.cpp:129-138 | `u + v` moves the zero point by v and keeps dimensions and factor; name `(name+v)`, symbol `symbol+v` |
| Units.Subtract | src/unit.cpp:140-149 | `u - v` moves the zero point by -v and keeps dimensions and factor; name `(name-v)`, symbol `symbol-v` |
| Units.ScalarPlus | include/quantify/unit.h:68 | `s + u` is `u + s` |
| Units.ScalarMinus | include/quantify/unit.h:70 | `s - u` is `u - s`, lowering the offset by s; it is not a negation |
| Units.MultiplyBy | src/unit.cpp:151-163 | fails exactly when either unit is affine, naming the right operand when both are; otherwise dimensions add, factors multiply, offset 0, names joined by "*" |
| Units.MultiplyByScalar | src/unit.cpp:165-176 | fails exactly for an affine unit; otherwise the same dimensions, factor scaled by v, offset 0, name `v*name` |
| Units.ScalarTimes | include/quantify/unit.h:73 | `s * u` is `u * s` |
| Units.DivideBy | src/unit.cpp:178-190 | fails exactly when either unit is affine, naming the divisor first; otherwise dimensions subtract, the factor times the divisor's factor is the dividend's, offset 0, names joined by "/" |
| Units.DivideByScalar | src/unit.cpp:192-203 | fails exactly for an affine unit; otherwise the same dimensions, factor times v is the old factor, offset 0, name `name/v` |
| Units.ScalarDivide | include/quantify/unit.h:76-87 | `s / u` fails exactly for an affine unit; otherwise dimensions `power(-1)`, factor times u's factor is s, offset 0, name `s/name` |
| Units.EqualsReflexive | src/unit.cpp:114-117 | every unit equals itself |
| Units.EqualsSymmetric | src/unit.cpp:114-117 | unit equality does not depend on operand order |
| Units.EqualsImpliesCompatible | src/unit.cpp:114-117 | equal units are compatible |
| Units.EqualsIgnoresOffset | src/unit.cpp:114-138 | `u + v` equals `u` for every v, although for v ≠ 0 it is a different scale |
| Units.OrderingTrichotomy | src/unit.cpp:114-127 | compatible units satisfy at least one of `<`, `==`, `>`; `<` and `>` never hold together; incompatible units satisfy none |
| Units.OrderingDuality | include/quantify/unit.h:63-66 | `a <= b` iff `b >= a`, and `a < b` iff `b > a` |
| Units.AddThenSubtract | src/unit.cpp:129-149 | adding then subtracting the same v restores dimensions, factor and offset |
| Units.RenameForgetsLabel | include/quantify/unit.h:38 | renaming units of the same scale gives the same unit, whatever their names were |
| Units.DefaultIsNeutral | include/quantify/unit.h:37 | multiplying by the default unit keeps dimensions and factor |
| Units.MultiplyByCommutes | src/unit.cpp:151-163 | `a * b` and `b * a` fail together and otherwise have the same scale; when both are affine the two errors differ unless a == b |
| Units.MultiplyByScalarThenDivide | src/unit.cpp:165-203 | for a non-affine unit and v ≠ 0, `(u * v) / v` succeeds with u's dimensions and factor and offset 0; when u's offset is exactly 0 it is u's scale |
| Units.MultiplyThenDivide | src/unit.cpp:151-190 | `(a * b) / b` has a's dimensions and factor |
| Units.PowerOne | src/unit.cpp:101-112 | `power(1)` of a unit with offset 0 has the same scale |
| Units.PowerTwoIsSquare | src/unit.cpp:101-163 | `power(2)` has the same scale as `u * u` |
| Units.PowerOfPower | src/unit.cpp:101-112 | `u.power(n).power(m)` has the same scale as `u.power(n * m)` |
| Units.ReciprocalIsPowerMinusOne | include/quantify/unit.h:76-87 | `1.0 / u` has the same scale as `u.power(-1)` |
| Quantities.DefaultQuantity | include/quantify/quantity.h:35 | `Quantity()`: value 0 in the default unit, so its reference value is 0 |
| Quantities.ConvertTo | src/quantity.cpp:65-70 | fails with `IncompatibleUnits(q.unit, t)` exactly when dimensions differ; otherwise the result is in `t` with the same reference value |
| Quantities.EqualsScalar | src/quantity.cpp:121-124 | `q == s` exactly when the raw value is within ε of s |
| Quantities.LessThanScalar | src/quantity.cpp:126-129 | `q < s` on the raw value |
| Quantities.GreaterThanScalar | src/quantity.cpp:131-134 | `q > s` on the raw value |
| Quantities.NotEqualsScalar | include/quantify/quantity.h:64 | `q != s` exactly when the raw value is ε or more away from s |
| Quantities.LessOrEqualScalar | include/quantify/quantity.h:68 | `q <= s` exactly when the raw value is below s + ε |
| Quantities.GreaterOrEqualScalar | include/quantify/quantity.h:72 | `q >= s` exactly when the raw value is above s - ε |
| Quantities.ToInt | src/quantity.cpp:72-75 | `toInt` is a nearest integer, with ties away from zero |
| Quantities.ValueIn | src/quantity.cpp:84-92 | the right operand as binary operations read it: raw when the units are `Unit::equals`; otherwise converted so that its reference value in the left unit is unchanged; `IncompatibleUnits(other, this)` exactly when dimensions differ |
| Quantities.Equals | src/quantity.cpp:82-93 | fails exactly for incompatible dimensions, with the error `other.convertTo` raises; otherwise compares the left value with the right operand read in the left unit |
| Quantities.LessThan | src/quantity.cpp:95-106 | the same, for `<` |
| Quantities.GreaterThan | src/quantity.cpp:108-119 | the same, for `>` |
| Quantities.NotEquals | include/quantify/quantity.h:63 | fails exactly when `==` fails, with the same `IncompatibleUnits(other, this)`, and otherwise is its negation |
| Quantities.LessOrEqual | include/quantify/quantity.h:67 | `a < b \|\| a == b`: fails exactly for incompatible dimensions; otherwise the left value is below the right operand's value plus ε |
| Quantities.GreaterOrEqual | include/quantify/quantity.h:71 | `a > b \|\| a == b`, symmetrically |
| Quantities.Add | src/quantity.cpp:136-147 | fails exactly for incompatible dimensions; the sum is in the left unit; raw values add when the units are `Unit::equals`, otherwise the reference value is the sum of both reference values less the left offset |
| Quantities.Subtract | src/quantity.cpp:154-165 | likewise for the difference |
| Quantities.AddScalar | src/quantity.cpp:149-152 | `q + s` adds to the value and keeps the unit |
| Quantities.SubtractScalar | src/quantity.cpp:167-170 | `q - s` subtracts from the value and keeps the unit |
| Quantities.MultiplyByScalar | src/quantity.cpp:177-180 | `q * s` scales the value and keeps the unit |
| Quantities.ScalarPlus | include/quantify/quantity.h:75 | `s + q` is `q + s` |
| Quantities.ScalarMinus | include/quantify/quantity.h:78 | `s - q` has value `q.value - s`, not `s - q.value` |
| Quantities.ScalarTimes | include/quantify/quantity.h:81 | `s * q` is `q * s` |
| Quantities.MultiplyBy | src/quantity.cpp:172-175 | fails exactly when either unit is affine, with the unit product's error; otherwise unit `a.unit * b.unit`, value and magnitude are the products |
| Quantities.DivideBy | src/quantity.cpp:182-185 | fails exactly when either unit is affine; otherwise unit `a.unit / b.unit`, value times b's value is a's value, and likewise for magnitudes |
| Quantities.DivideByScalarAsWritten | src/quantity.cpp:187-190 | `q / s` as written: fails with `UnsupportedOperation(q.unit, "/")` exactly for an affine unit; otherwise the unit is `q.unit / s` (same dimensions, factor divided by s), the value is divided by s, and so the magnitude is divided by s twice |
| Quantities.DivideByScalar | src/quantity.cpp:187-190 | `q / s` as intended: the unit is kept, and value and magnitude are divided by s once |
| Quantities.ScalarDivide | include/quantify/quantity.h:84-87 | `s / q` fails with `UnsupportedOperation(q.unit, "/")` exactly for an affine unit; otherwise the unit is `1.0 / q.unit` (dimensions `power(-1)`, factor the reciprocal of q's), value times q's value is s, and magnitude times q's magnitude is s |
| Quantities.ReferenceDeterminesValue | src/quantity.cpp:69 | in one unit with a non-zero factor, equal reference values mean equal quantities |
| Quantities.ConvertRoundTrip | src/quantity.cpp:65-70 | converting A → B → A returns the original quantity exactly |
| Quantities.ConvertToSelf | src/quantity.cpp:65-70 | converting into the quantity's own unit changes nothing |
| Quantities.ConvertTransitive | src/quantity.cpp:65-70 | converting through an intermediate unit equals converting directly |
| Quantities.LessThanByReference | src/quantity.cpp:95-106 | between compatible units that are not `Unit::equals`, with a positive left factor, `<` compares reference values |
| Quantities.GreaterThanByReference | src/quantity.cpp:108-119 | likewise `>` |
| Quantities.EqualsByReference | src/quantity.cpp:82-93 | likewise `==`, with the tolerance on reference values scaled by the left factor |
| Quantities.RawValuesWhenUnitsEqual | src/quantity.cpp:84-86 | when the units are `Unit::equals`, `<`, `>`, `==`, `+` and `-` use the raw values and ignore the offsets |
| Quantities.IncompatibleOperands | src/quantity.cpp:82-165 | on incompatible dimensions every binary comparison and `+`/`-` fails with `IncompatibleUnits(other, this)` |
| Quantities.AddThenSubtract | src/quantity.cpp:136-165 | `(a + b) - b == a` for compatible quantities |
| Quantities.AddScalarThenSubtract | src/quantity.cpp:149-170 | `(q + s) - s == q` and `(q - s) + s == q` |
| Quantities.ScalarComparisonsIgnoreUnit | src/quantity.cpp:121-134 | comparisons with a number give the same answer whatever the unit |
| Quantities.ToIntIsStdRound | src/quantity.cpp:72-75 | `toInt` agrees with `std::round` on every real value (doubles are reals here; see the IEEE-754 line under "## Left out") |
| Quantities.MultiplyThenDivideByScalar | src/quantity.cpp:177-190 | the corrected `/ s` undoes `* s` exactly; as written, `(q * s) / s` keeps only 1/s of the magnitude |
| StandardUnits.BaseUnits | src/standardunits.cpp:33-87 | the seven base units each have exponent 1 on their own axis and 0 elsewhere, factor 1 and offset 0 |
| StandardUnits.FootScale | src/standardunits.cpp:42-44 | foot = 12 inch = 12000 thou, a length with factor 0.3048 |
| StandardUnits.CelsiusScale | src/standardunits.cpp:80 | degree Celsius is kelvin with offset 273.15 |
| StandardUnits.FahrenheitScale | src/standardunits.cpp:81 | degree Fahrenheit has factor 5/9 and offset (5/9)·459.67, so -459.67 °F is absolute zero |
| StandardUnits.KelvinEqualsCelsius | src/standardunits.cpp:79-80 | kelvin and degree Celsius are `equals` although their offsets differ |
| StandardUnits.AffineTemperaturesRejectProducts | src/standardunits.cpp:80-81 | Celsius and Fahrenheit reject `power`, `*` and `/`, and the error names them and the operator |
| StandardUnits.LiterScale | src/standardunits.cpp:97 | liter = decimeter^3: length cubed, factor 0.001 |
| StandardUnits.NewtonScale | src/standardunits.cpp:110 | newton = meter·kilogram·second^-2: dimensions (1, 1, -2), factor 1 |
| DimensionExamples.EqualScenario | test/dimensionstests.cpp:48-52 | (1,2,3) equals (1,2,3) and not (4,5,6) |
| DimensionExamples.MultiplyScenario | test/dimensionstests.cpp:54-60 | (1,2,3)·(1,2,3) = (2,4,6) |
| DimensionExamples.DivideScenario | test/dimensionstests.cpp:62-73 | (1,2,3)/(1,2,3) = 0 and (1,2,3)/(4,5,6) = (-3,-3,-3) |
| DimensionExamples.PowerScenario | test/dimensionstests.cpp:75-87 | (1,2,3)^2 = (2,4,6) and (4,5,6)^5 = (20,25,30) |
| DimensionExamples.ExponentWrapsAround | include/quantify/dimensions.h:94 | a length exponent of 100 squared is stored as -56 |
| UnitExamples.EqualScenario | test/unittests.cpp:54-63 | meter ≠ feet, and m·m equals a square-meter unit that differs from meter |
| UnitExamples.IsCompatibleScenario | test/unittests.cpp:65-70 | meter~feet, not meter~kelvin, kelvin~Celsius |
| UnitExamples.PowerScenario | test/unittests.cpp:72-92 | meter^4 is named "meter^4"/"m^4" with dimension 4; Celsius^2 throws |
| UnitExamples.MultiplyScenario | test/unittests.cpp:94-121 | "meter*meter"/"m*m"; (kg·m)/s has dimensions (1,1,-1); Celsius·kelvin throws naming Celsius |
| UnitExamples.DivideScenario | test/unittests.cpp:123-144 | "meter/second"/"m/s" with dimensions (1,0,-1); Celsius/3 throws |
| UnitExamples.AddScenario | test/unittests.cpp:146-152 | kelvin + 273.15 equals a Celsius unit |
| UnitExamples.SubtractScenario | test/unittests.cpp:154-160 | the fixture Celsius - 273.15 has offset -546.3 yet equals kelvin |
| QuantityExamples.ConvertMeterToFoot | test/quantitytests.cpp:57-58 | 1 m is 1/0.3048 ft, which rounds to 3.28084 at 5 decimals |
| QuantityExamples.ConvertKelvinToCelsius | test/quantitytests.cpp:60-61 | 1 K is exactly -272.15 °C |
| QuantityExamples.ConvertCelsiusToFahrenheit | test/quantitytests.cpp:63-64 | -272.15 °C is exactly -457.87 °F |
| QuantityExamples.EqualScenario | test/quantitytests.cpp:69-72 | 1 ft == 0.3048 m |
| QuantityExamples.NotEqualScenario | test/quantitytests.cpp:73 | 1 ft != 1 m |
| QuantityExamples.EqualIncompatibleScenario | test/quantitytests.cpp:75-85 | 1 ft == 1 s throws `IncompatibleUnits` |
| QuantityExamples.OrderScenario | test/quantitytests.cpp:89-125 | 1 ft < 1 m, 1 m > 1 ft, and ft against s throws |
| QuantityExamples.AddScenario | test/quantitytests.cpp:127-150 | 1 m + 1 = 2, 1 m + 2 m = 3 m, 1 m + 1 ft = 1.3048 m, 1 m + 1 s throws |
| QuantityExamples.SubtractScenario | test/quantitytests.cpp:152-172 | 1 m - 1 = 0, 1 m - 1 ft = 0.6952 m, 1 m - 1 s throws |
| QuantityExamples.MultiplyScenario | test/quantitytests.cpp:174-191 | (2 K)·(1 m) == 2 with symbol "K*m"; 1 m · 1 °C throws naming °C |
| QuantityExamples.DivideScenario | test/quantitytests.cpp:193-210 | (1 K)/(2 m) == 0.5 with symbol "K/m"; 1 m / 1 °C throws |
| QuantityExamples.ToIntScenario | test/quantitytests.cpp:212-225 | 1.49 → 1 and 1.50 → 2 |
| QuantityExamples.ToIntNegativeTie | src/quantity.cpp:74 | on the negative branch -1.5 → -2 and -1.49 → -1 |
| QuantityExamples.ScalarMinusScenario | include/quantify/quantity.h:78 | 5 - (1 m) is -4 m |
| QuantityExamples.OffsetIgnoredScenario | src/quantity.cpp:108-147 | 300 K > 30 °C and 300 K + 30 °C = 330 K, although 30 °C is 303.15 K |
| QuantityExamples.DefaultQuantityScenario | include/quantify/quantity.h:35 | the default quantity is 0 in the dimensionless default unit |
| QuantityExamples.DivideByScalarFinding | src/quantity.cpp:187-190 | as written, (4 m)/2 has magnitude 1 m and (4 °C)/2 throws; corrected, 2 m and 2 °C |

## Left out

- Copy and move constructors, assignment operators, `copyFrom` and `moveFrom`: C++ memory management. Values are immutable datatypes, so there is nothing to copy or zero.
- Getters and setters on `Unit` and `Quantity`: record fields and record updates play their part. `DimensionVector.Get` and `DimensionVector.Set` model the dimension getters and setters.
- IEEE-754 rounding, infinities and NaN: doubles are reals. Dividing by zero is excluded by a `requires` that applies only on the branch that divides. These members carry one:
  - `Utils.RealPow`: no negative power of 0.
  - `Units.Power`: for a negative power, a non-zero factor.
  - `Units.DivideBy`, `Units.DivideByScalar` and `Units.ScalarDivide`: a non-zero divisor.
  - `Quantities.ConvertTo`: a non-zero factor for the target unit (`Quantities.ConvertibleInto`).
  - `Quantities.ValueIn`, `Quantities.Equals`, `Quantities.LessThan`, `Quantities.GreaterThan`, `Quantities.NotEquals`, `Quantities.LessOrEqual`, `Quantities.GreaterOrEqual`, `Quantities.Add` and `Quantities.Subtract`: when the units are not `Unit::equals`, the right operand is converted, which needs a non-zero left factor (`Quantities.Combinable`).
  - `Quantities.DivideBy`, `Quantities.DivideByScalarAsWritten`, `Quantities.DivideByScalar` and `Quantities.ScalarDivide`: a non-zero divisor.
- `Quantity::toFloat` (src/quantity.cpp:77-80): a narrowing cast to `float` with no counterpart over the reals.
- `DimensionVector.Power` and `Units.Power`: the power `n` is an unbounded integer, while the source takes a 32-bit `int` (src/dimensions.cpp:166, src/unit.cpp:101). The model wraps the exact product `exponent * n` modulo 256. It does not model the 32-bit overflow of that product, which is undefined behaviour in the source: for example, an exponent of 127 raised to the power 20000000 gives 2 540 000 000, above 2^31 - 1. Sums and differences of two `char` exponents cannot overflow an `int`, so `MultiplyBy` and `DivideBy` are exact.
- `Quantities.ToInt`: does not model the overflow of the `int` cast for values outside the `int` range, because the model has unbounded integers.
- The digits of a `double` written into a name or symbol, and the `Quantity` stream operator (include/quantify/quantity.h:88-92): stringstream formatting of floating point is a parameter `fmt`, not a definition.
- `DimensionVector.Render`: states the frame and, through `DimensionVector.RenderInjective`, that the display determines the vector. It does not state digit-by-digit rendering of sample vectors, because unfolding it on literal vectors is too costly for the solver.
- Exception message text (include/quantify/incompatibleunitsexception.h, include/quantify/unitunsupportedoperationexception.h): only the payload, that is the units and the operator, is modelled. src/unit.cpp throws `UnitUnsupportedOperation`, while the header declares `UnitUnsupportedOperationException`. Both are the one error kind `UnsupportedOperation`.
- The rest of the standard-unit catalog: it is declarative data built with the operations already modelled. `volt` (src/standardunits.cpp:74) reads `watt` before its definition at line 119 is initialised, and `ohm` and `farad` (lines 75-76) are built from `volt`. That is undefined behaviour, so none of the three is modelled.
- The decimal formatting of the catalog's composition steps: the catalog renames every composed unit, and `Units.RenameForgetsLabel` shows the intermediate text is discarded.

## Findings

| source | as written | input that shows it | evidently intended | confidence | as-written member | corrected member |
|---|---|---|---|---|---|---|
| src/quantity.cpp:187-190 | `divideBy(double)` divides the unit's factor and the value both by s, so the magnitude is divided by s², and an affine unit throws | 4 m / 2 has factor 1/2 and value 2, that is a magnitude of 1 m; 4 °C / 2 throws `UnsupportedOperation` | divide the value only, keeping the unit, as `multiplyBy(double)` does at src/quantity.cpp:177-180: 4 m / 2 = 2 m | medium, not executed | Quantities.DivideByScalarAsWritten (exhibited by QuantityExamples.DivideByScalarFinding) | Quantities.DivideByScalar (proved to undo `* s` by Quantities.MultiplyThenDivideByScalar) |

=== FILE: decimal.dfy ===
/** Decimal text of integers, as an output stream prints an `int`: an
    optional minus sign followed by the digits without leading zeros. The
    dimension rendering and the names built by `Unit::power` use it. */
module Decimal {

  predicate IsDigit(c: char) {
    '0' <= c <= '9'
  }

  function DigitChar(d: nat): (c: char)
    requires d < 10
    ensures IsDigit(c)
  {
    ('0' as int + d) as char
  }

  function DigitValue(c: char): (d: nat)
    requires IsDigit(c)
    ensures d < 10
    ensures DigitChar(d) == c
  {
    c as int - '0' as int
  }

  /** Characters an `int` rendering may hold: digits, and a minus sign in
      front. */
  predicate IsIntText(s: string) {
    && |s| >= 1
    && forall i :: 0 <= i < |s| ==> IsDigit(s[i]) || (i == 0 && s[i] == '-')
  }

  function NatToString(n: nat): (s: string)
    ensures |s| >= 1
    ensures forall i :: 0 <= i < |s| ==> IsDigit(s[i])
    ensures s[0] == '0' ==> n == 0
    decreases n
  {
    if n < 10 then [DigitChar(n)] else NatToString(n / 10) + [DigitChar(n % 10)]
  }

  function IntToString(i: int): (s: string)
    ensures IsIntText(s)
    ensures s[0] == '-' <==> i < 0
    ensures s[0] == '0' ==> i == 0
    ensures s[0] == '-' ==> |s| >= 2 && s[1] != '0'
  {
    if i < 0 then "-" + NatToString(-i) else NatToString(i)
  }

  /** Reads a string of digits back as a number. */
  function ParseNat(s: string): nat
    requires forall i :: 0 <= i < |s| ==> IsDigit(s[i])
    decreases |s|
  {
    if |s| == 0 then 0 else 10 * ParseNat(s[..|s| - 1]) + DigitValue(s[|s| - 1])
  }

  function ParseInt(s: string): int
    requires IsIntText(s)
  {
    if s[0] == '-' then -(ParseNat(s[1..]) as int) else ParseNat(s)
  }

  lemma {:induction false} ParseNatOfNatToString(n: nat)
    ensures ParseNat(NatToString(n)) == n
    decreases n
  {
    if n >= 10 {
      var s := NatToString(n / 10);
      var t := s + [DigitChar(n % 10)];
      assert t[..|t| - 1] == s;
      ParseNatOfNatToString(n / 10);
    }
  }

  /** Parsing undoes the rendering of any integer. */
  lemma ParseIntOfIntToString(i: int)
    ensures ParseInt(IntToString(i)) == i
  {
    if i < 0 {
      assert IntToString(i)[1..] == NatToString(-i);
      ParseNatOfNatToString(-i);
    } else {
      ParseNatOfNatToString(i);
    }
  }

  /** Distinct integers render to distinct text. */
  lemma IntToStringInjective(i: int, j: int)
    requires IntToString(i) == IntToString(j)
    ensures i == j
  {
    ParseIntOfIntToString(i);
    ParseIntOfIntToString(j);
  }
}

=== FILE: dimensions.dfy ===
/** The dimension vector: the exponents of the seven SI base dimensions.
    The library stores each exponent in a `char`; arithmetic on exponents is
    done in `int` and narrowed back. The model assumes a signed 8-bit `char`
    with two's complement narrowing, so that the narrowing wraps modulo 256,
    and makes that wrap-around explicit: every law below holds without a
    range precondition. */
module DimensionVector {
  import Decimal

  /** Number of base dimensions and the index of each in the vector. */
  const Count: nat := 7
  const LengthId: nat := 0
  const MassId: nat := 1
  const TimeId: nat := 2
  const ElectricCurrentId: nat := 3
  const ThermodynamicTemperatureId: nat := 4
  const AmountOfSubstanceId: nat := 5
  const LuminousIntensityId: nat := 6

  type Axis = i: nat | i < Count

  /** A signed `char`. */
  type Exponent = x: int | -128 <= x < 128

  type Dimensions = e: seq<Exponent> | |e| == Count witness [0, 0, 0, 0, 0, 0, 0]

  /** `x` and `y` denote the same `char`. */
  predicate Congruent(x: int, y: int) {
    (x - y) % 256 == 0
  }

  /** Narrowing an `int` to a signed `char`: the one exponent congruent to
      `x` modulo 256, reached by steps of 256. */
  function Wrap(x: int): (r: Exponent)
    ensures Congruent(x, r)
    ensures -128 <= x < 128 ==> r == x
    decreases if x < -128 then -x - 128 else if x >= 128 then x - 127 else 0
  {
    if x < -128 then Wrap(x + 256)
    else if x >= 128 then Wrap(x - 256)
    else x
  }

  lemma CongruentByMultiple(x: int, y: int, k: int)
    requires x - y == 256 * k
    ensures Congruent(x, y)
  {}

  /** A congruence as an explicit multiple of 256. */
  lemma CongruentMultiple(x: int, y: int)
    requires Congruent(x, y)
    ensures x - y == 256 * ((x - y) / 256)
  {}

  lemma WrapOfCongruent(x: int, y: int)
    requires Congruent(x, y)
    ensures Wrap(x) == Wrap(y)
  {
    SameCharOfCongruent(x, y, Wrap(x), Wrap(y));
  }

  /** Two exponents congruent to congruent integers are the same `char`. */
  lemma SameCharOfCongruent(x: int, y: int, wx: Exponent, wy: Exponent)
    requires Congruent(x, y) && Congruent(x, wx) && Congruent(y, wy)
    ensures wx == wy
  {
    CongruentMultiple(x, wx);
    CongruentMultiple(y, wy);
    CongruentMultiple(x, y);
    var m := (x - y) / 256 - (x - wx) / 256 + (y - wy) / 256;
    assert wx - wy == 256 * m;
  }

  lemma WrapAddLeft(x: int, y: int)
    ensures Wrap(Wrap(x) + y) == Wrap(x + y)
  {
    var q := (x - Wrap(x)) / 256;
    CongruentByMultiple(Wrap(x) + y, x + y, -q);
    WrapOfCongruent(Wrap(x) + y, x + y);
  }

  lemma WrapMulLeft(x: int, m: int)
    ensures Wrap(Wrap(x) * m) == Wrap(x * m)
  {
    var w := Wrap(x);
    var q := (x - w) / 256;
    assert x - w == 256 * q;
    assert w * m - x * m == 256 * (-q * m) by {
      assert w * m - x * m == (w - x) * m;
    }
    CongruentByMultiple(w * m, x * m, -q * m);
    WrapOfCongruent(w * m, x * m);
  }

  /** The constructor: the i-th argument goes to axis i, and omitted
      arguments are 0. */
  function Make(length: Exponent := 0, mass: Exponent := 0, time: Exponent := 0,
                electricCurrent: Exponent := 0, thermodynamicTemperature: Exponent := 0,
                amountOfSubstance: Exponent := 0, luminousIntensity: Exponent := 0): (d: Dimensions)
    ensures d[LengthId] == length && d[MassId] == mass && d[TimeId] == time
    ensures d[ElectricCurrentId] == electricCurrent
    ensures d[ThermodynamicTemperatureId] == thermodynamicTemperature
    ensures d[AmountOfSubstanceId] == amountOfSubstance
    ensures d[LuminousIntensityId] == luminousIntensity
  {
    [length, mass, time, electricCurrent, thermodynamicTemperature, amountOfSubstance, luminousIntensity]
  }

  /** The dimensionless vector. */
  const Zero: Dimensions := Make()

  /** The getters: the exponent stored for one axis. */
  function Get(d: Dimensions, axis: Axis): Exponent {
    d[axis]
  }

  /** Each getter returns the exponent the constructor was given for its
      axis. */
  lemma GetOfMake(length: Exponent, mass: Exponent, time: Exponent,
                  electricCurrent: Exponent, thermodynamicTemperature: Exponent,
                  amountOfSubstance: Exponent, luminousIntensity: Exponent)
    ensures var d := Make(length, mass, time, electricCurrent, thermodynamicTemperature,
                          amountOfSubstance, luminousIntensity);
      && Get(d, LengthId) == length && Get(d, MassId) == mass && Get(d, TimeId) == time
      && Get(d, ElectricCurrentId) == electricCurrent
      && Get(d, ThermodynamicTemperatureId) == thermodynamicTemperature
      && Get(d, AmountOfSubstanceId) == amountOfSubstance
      && Get(d, LuminousIntensityId) == luminousIntensity
  {
  }

  /** The setters: one axis takes the new value, the six others keep theirs. */
  function Set(d: Dimensions, axis: Axis, value: Exponent): (r: Dimensions)
    ensures Get(r, axis) == value
    ensures forall other: Axis :: other != axis ==> Get(r, other) == Get(d, other)
  {
    d[axis := value]
  }

  /** `equals` compares the seven stored bytes. */
  function Equals(a: Dimensions, b: Dimensions): (r: bool)
    ensures r <==> a == b
  {
    forall i :: 0 <= i < Count ==> a[i] == b[i]
  }

  /** `operator!=`: some axis differs. */
  function NotEquals(a: Dimensions, b: Dimensions): (r: bool)
    ensures r <==> exists i :: 0 <= i < Count && a[i] != b[i]
  {
    !Equals(a, b)
  }

  /** `multiplyBy`, the dimensions of a product of units: exponents add. */
  function MultiplyBy(a: Dimensions, b: Dimensions): (r: Dimensions)
    ensures forall i :: 0 <= i < Count ==> r[i] == Wrap(a[i] as int + b[i])
  {
    seq(Count, i requires 0 <= i < Count => Wrap(a[i] as int + b[i]))
  }

  /** `divideBy`, the dimensions of a quotient of units: exponents subtract. */
  function DivideBy(a: Dimensions, b: Dimensions): (r: Dimensions)
    ensures forall i :: 0 <= i < Count ==> r[i] == Wrap(a[i] as int - b[i])
  {
    seq(Count, i requires 0 <= i < Count => Wrap(a[i] as int - b[i]))
  }

  /** `power(n)`: every exponent is scaled by `n`. */
  function Power(a: Dimensions, n: int): (r: Dimensions)
    ensures forall i :: 0 <= i < Count ==> r[i] == Wrap(a[i] as int * n)
  {
    seq(Count, i requires 0 <= i < Count => Wrap(a[i] as int * n))
  }

  lemma EqualsReflexive(a: Dimensions)
    ensures Equals(a, a)
  {}

  lemma EqualsSymmetric(a: Dimensions, b: Dimensions)
    ensures Equals(a, b) == Equals(b, a)
  {}

  lemma MultiplyByCommutative(a: Dimensions, b: Dimensions)
    ensures MultiplyBy(a, b) == MultiplyBy(b, a)
  {
    assert forall i :: 0 <= i < Count ==> a[i] as int + b[i] == b[i] as int + a[i];
  }

  lemma WrapAddAssociative(x: int, y: int, z: int)
    ensures Wrap(Wrap(x + y) + z) == Wrap(x + Wrap(y + z))
  {
    WrapAddLeft(x + y, z);
    WrapAddLeft(y + z, x);
    assert Wrap(y + z) + x == x + Wrap(y + z);
    assert (y + z) + x == (x + y) + z;
  }

  lemma MultiplyByAssociative(a: Dimensions, b: Dimensions, c: Dimensions)
    ensures MultiplyBy(MultiplyBy(a, b), c) == MultiplyBy(a, MultiplyBy(b, c))
  {
    var ab, bc := MultiplyBy(a, b), MultiplyBy(b, c);
    forall i | 0 <= i < Count
      ensures MultiplyBy(ab, c)[i] == MultiplyBy(a, bc)[i]
    {
      assert MultiplyBy(ab, c)[i] == Wrap(Wrap(a[i] as int + b[i]) + c[i]);
      assert MultiplyBy(a, bc)[i] == Wrap(a[i] as int + Wrap(b[i] as int + c[i]));
      WrapAddAssociative(a[i], b[i], c[i]);
    }
  }

  /** The dimensionless vector is the identity of `multiplyBy`. */
  lemma MultiplyByZero(a: Dimensions)
    ensures MultiplyBy(a, Zero) == a
  {
    assert forall i :: 0 <= i < Count ==> MultiplyBy(a, Zero)[i] == a[i];
  }

  lemma DivideBySelf(a: Dimensions)
    ensures DivideBy(a, a) == Zero
  {
    assert forall i :: 0 <= i < Count ==> DivideBy(a, a)[i] == Zero[i];
  }

  /** Dividing by `b` undoes multiplying by `b`, wrap-around included. */
  lemma DivideByUndoesMultiplyBy(a: Dimensions, b: Dimensions)
    ensures DivideBy(MultiplyBy(a, b), b) == a
  {
    forall i | 0 <= i < Count
      ensures DivideBy(MultiplyBy(a, b), b)[i] == a[i]
    {
      WrapAddLeft(a[i] as int + b[i], -(b[i] as int));
    }
  }

  lemma PowerOne(a: Dimensions)
    ensures Power(a, 1) == a
  {
    assert forall i :: 0 <= i < Count ==> Power(a, 1)[i] == a[i];
  }

  lemma PowerZero(a: Dimensions)
    ensures Power(a, 0) == Zero
  {
    forall i | 0 <= i < Count
      ensures Power(a, 0)[i] == Zero[i]
    {
      assert a[i] as int * 0 == 0;
    }
  }

  lemma MulAssociative(x: int, n: int, m: int)
    ensures (x * n) * m == x * (n * m)
  {}

  lemma WrapMulMul(x: int, n: int, m: int)
    ensures Wrap(Wrap(x * n) * m) == Wrap(x * (n * m))
  {
    WrapMulLeft(x * n, m);
    MulAssociative(x, n, m);
  }

  /** Raising to `n` and then to `m` is raising to `n * m`. */
  lemma PowerOfPower(a: Dimensions, n: int, m: int)
    ensures Power(Power(a, n), m) == Power(a, n * m)
  {
    forall i | 0 <= i < Count
      ensures Power(Power(a, n), m)[i] == Power(a, n * m)[i]
    {
      WrapMulMul(a[i], n, m);
    }
  }

  /** One more power is one more factor. */
  lemma PowerSuccessor(a: Dimensions, n: int)
    ensures Power(a, n + 1) == MultiplyBy(Power(a, n), a)
  {
    forall i | 0 <= i < Count
      ensures Power(a, n + 1)[i] == MultiplyBy(Power(a, n), a)[i]
    {
      WrapAddLeft(a[i] * n, a[i]);
      assert a[i] * (n + 1) == a[i] * n + a[i];
    }
  }

  /** Power -1 inverts a vector: it is the dimensionless vector divided by it. */
  lemma PowerMinusOne(a: Dimensions)
    ensures Power(a, -1) == DivideBy(Zero, a)
  {
    assert forall i :: 0 <= i < Count ==> Power(a, -1)[i] == DivideBy(Zero, a)[i];
  }

  /** The exponents separated by ", ", as the stream operator prints them. */
  function Join(xs: seq<int>): (s: string)
    requires |xs| >= 1
    ensures |s| >= 1
    decreases |xs|
  {
    if |xs| == 1 then Decimal.IntToString(xs[0])
    else Decimal.IntToString(xs[0]) + ", " + Join(xs[1..])
  }

  /** The stream rendering "[e0, e1, e2, e3, e4, e5, e6]" in axis order. */
  function Render(d: Dimensions): (s: string)
    ensures |s| >= 3 && s[0] == '[' && s[|s| - 1] == ']'
  {
    "[" + Join(d) + "]"
  }

  lemma IntTextHasNoComma(i: int)
    ensures ',' !in Decimal.IntToString(i)
  {
    var s := Decimal.IntToString(i);
    assert forall k :: 0 <= k < |s| ==> s[k] != ',';
  }

  /** In `s + ", " + t`, the first comma is the one after `s`. */
  lemma FirstComma(s: string, t: string)
    requires ',' !in s
    ensures (s + ", " + t)[|s|] == ','
    ensures forall k :: 0 <= k < |s| ==> (s + ", " + t)[k] != ','
  {
    var u := s + ", " + t;
    assert forall k :: 0 <= k < |s| ==> u[k] == s[k];
  }

  /** Text without a comma is determined by where the first separator is. */
  lemma SplitAtSeparator(s1: string, t1: string, s2: string, t2: string)
    requires ',' !in s1 && ',' !in s2
    requires s1 + ", " + t1 == s2 + ", " + t2
    ensures s1 == s2 && t1 == t2
  {
    var u1, u2 := s1 + ", " + t1, s2 + ", " + t2;
    FirstComma(s1, t1);
    FirstComma(s2, t2);
    assert |s1| == |s2|;
    assert s1 == u1[..|s1|] && s2 == u2[..|s2|];
    assert t1 == u1[|s1| + 2..] && t2 == u2[|s2| + 2..];
  }

  lemma {:induction false} JoinInjective(xs: seq<int>, ys: seq<int>)
    requires |xs| >= 1 && |ys| >= 1
    requires Join(xs) == Join(ys)
    ensures xs == ys
    decreases |xs|
  {
    var x, y := Decimal.IntToString(xs[0]), Decimal.IntToString(ys[0]);
    IntTextHasNoComma(xs[0]);
    IntTextHasNoComma(ys[0]);
    if |xs| == 1 && |ys| == 1 {
      Decimal.IntToStringInjective(xs[0], ys[0]);
    } else if |xs| == 1 {
      assert false;
    } else if |ys| == 1 {
      assert false;
    } else {
      SplitAtSeparator(x, Join(xs[1..]), y, Join(ys[1..]));
      Decimal.IntToStringInjective(xs[0], ys[0]);
      JoinInjective(xs[1..], ys[1..]);
      assert xs == [xs[0]] + xs[1..] && ys == [ys[0]] + ys[1..];
    }
  }

  /** Distinct dimension vectors are displayed differently. */
  lemma RenderInjective(a: Dimensions, b: Dimensions)
    requires Render(a) == Render(b)
    ensures a == b
  {
    var r := Render(a);
    assert Join(a) == r[1..|r| - 1];
    assert Join(b) == r[1..|r| - 1];
    JoinInjective(a, b);
  }
}

=== FILE: examples_dimensions.dfy ===
/** The dimension-vector scenarios of the library's test suite, and the
    wrap-around of a stored exponent. */
module DimensionExamples {
  import opened DimensionVector

  const D1: Dimensions := Make(1, 2, 3)
  const D3: Dimensions := Make(4, 5, 6)

  lemma EqualScenario()
    ensures Equals(D1, Make(1, 2, 3))
    ensures !Equals(D1, D3)
  {
    assert D1[0] != D3[0];
  }

  lemma MultiplyScenario()
    ensures MultiplyBy(D1, D1) == Make(2, 4, 6)
  {
    var r := MultiplyBy(D1, D1);
    forall i | 0 <= i < Count
      ensures r[i] == Make(2, 4, 6)[i]
    {}
  }

  lemma DivideScenario()
    ensures DivideBy(D1, D1) == Zero
    ensures DivideBy(D1, D3) == Make(-3, -3, -3)
  {
    DivideBySelf(D1);
    var r := DivideBy(D1, D3);
    forall i | 0 <= i < Count
      ensures r[i] == Make(-3, -3, -3)[i]
    {}
  }

  lemma PowerScenario()
    ensures Power(D1, 2) == Make(2, 4, 6)
    ensures Power(D3, 5) == Make(20, 25, 30)
  {
    var r1 := Power(D1, 2);
    forall i | 0 <= i < Count
      ensures r1[i] == Make(2, 4, 6)[i]
    {}
    var r2 := Power(D3, 5);
    forall i | 0 <= i < Count
      ensures r2[i] == Make(20, 25, 30)[i]
    {}
  }

  /** An exponent past the range of a signed char wraps around: squaring a
      length exponent of 100 stores -56. */
  lemma ExponentWrapsAround()
    ensures Power(Make(100), 2)[LengthId] == -56
  {}
}

=== FILE: examples_quantity.dfy ===
/** The quantity scenarios of the library's test suite, on the standard
    units, together with the consequences of `Units.Equals` ignoring offsets
    and of the scalar division. */
module QuantityExamples {
  import opened Utils
  import DV = DimensionVector
  import U = Units
  import SU = StandardUnits
  import opened Quantities

  const OneMeter: Quantity := Quantity(SU.Meter, 1.0)
  const OneSecond: Quantity := Quantity(SU.Second, 1.0)
  const OneKelvin: Quantity := Quantity(SU.Kelvin, 1.0)
  const OneCelsius: Quantity := Quantity(SU.DegreeCelsius, 1.0)
  const OneFoot: Quantity := Quantity(SU.Foot, 1.0)

  /** 1 m is 1/0.3048 ft, which rounds to 3.28084 at five decimals. */
  lemma ConvertMeterToFoot()
    ensures ConvertTo(OneMeter, SU.Foot).Ok?
    ensures ConvertTo(OneMeter, SU.Foot).value.value == 1.0 / 0.3048
    ensures AreEqual(Round(1.0 / 0.3048, 5), 3.28084)
  {
    SU.FootScale();
    assert RealPow(10.0, 5) == 100000.0 by {
      assert RealPow(10.0, 2) == 100.0;
      assert RealPow(10.0, 4) == 10000.0 by {
        assert RealPow(10.0, 3) == 1000.0;
      }
    }
    assert StdRound(1.0 / 0.3048 * 100000.0) == 328084;
  }

  /** 1 K is -272.15 °C, ... */
  lemma ConvertKelvinToCelsius()
    ensures ConvertTo(OneKelvin, SU.DegreeCelsius) == U.Ok(Quantity(SU.DegreeCelsius, -272.15))
  {
    SU.CelsiusScale();
  }

  /** ... which is -457.87 °F. */
  lemma ConvertCelsiusToFahrenheit()
    ensures ConvertTo(Quantity(SU.DegreeCelsius, -272.15), SU.DegreeFahrenheit)
              == U.Ok(Quantity(SU.DegreeFahrenheit, -457.87))
  {
    SU.CelsiusScale();
    SU.FahrenheitScale();
    var f := 5.0 / 9.0;
    var v := ((1.0 * -272.15 + 273.15) - f * 459.67) / f;
    assert f * -457.87 == 1.0 - f * 459.67;
    assert v == -457.87;
  }

  lemma FootInMeters()
    ensures ConvertTo(Quantity(SU.Meter, 0.3048), SU.Foot) == U.Ok(OneFoot)
  {
    SU.FootScale();
    var c := ConvertTo(Quantity(SU.Meter, 0.3048), SU.Foot);
    assert SU.Foot.factor * c.value.value == 0.3048;
  }

  lemma EqualScenario()
    ensures Equals(OneFoot, Quantity(SU.Meter, 0.3048)) == U.Ok(true)
  {
    SU.FootScale();
    FootInMeters();
    assert !U.Equals(SU.Foot, SU.Meter);
  }

  lemma NotEqualScenario()
    ensures Equals(OneFoot, OneMeter) == U.Ok(false)
  {
    SU.FootScale();
    assert ValueIn(OneMeter, OneFoot) == U.Ok(1.0 / 0.3048);
  }

  lemma EqualIncompatibleScenario()
    ensures Equals(OneFoot, OneSecond) == U.Err(U.IncompatibleUnits(SU.Second, SU.Foot))
  {
    SU.FootScale();
    assert SU.Foot.dims[0] != SU.Second.dims[0];
  }

  lemma OrderScenario()
    ensures LessThan(OneFoot, OneMeter) == U.Ok(true)
    ensures GreaterThan(OneMeter, OneFoot) == U.Ok(true)
    ensures LessThan(OneFoot, OneSecond).Err?
    ensures GreaterThan(OneFoot, OneSecond).Err?
  {
    SU.FootScale();
    assert SU.Foot.dims[0] != SU.Second.dims[0];
  }

  lemma AddScenario()
    ensures AddScalar(OneMeter, 1.0).value == 2.0
    ensures Add(OneMeter, Quantity(SU.Meter, 2.0)) == U.Ok(Quantity(SU.Meter, 3.0))
    ensures Add(OneMeter, OneFoot) == U.Ok(Quantity(SU.Meter, 1.3048))
    ensures Add(OneMeter, OneSecond) == U.Err(U.IncompatibleUnits(SU.Second, SU.Meter))
  {
    SU.FootScale();
    assert SU.Meter.dims[0] != SU.Second.dims[0];
  }

  lemma SubtractScenario()
    ensures SubtractScalar(OneMeter, 1.0).value == 0.0
    ensures Subtract(OneMeter, OneFoot) == U.Ok(Quantity(SU.Meter, 0.6952))
    ensures Subtract(OneMeter, OneSecond).Err?
  {
    SU.FootScale();
    assert SU.Meter.dims[0] != SU.Second.dims[0];
  }

  /** (2 K) * (1 m) compares equal to the number 2 and has symbol "K*m". */
  lemma MultiplyScenario()
    ensures MultiplyBy(ScalarTimes(2.0, OneKelvin), OneMeter).Ok?
    ensures EqualsScalar(MultiplyBy(ScalarTimes(2.0, OneKelvin), OneMeter).value, 2.0)
    ensures MultiplyBy(ScalarTimes(2.0, OneKelvin), OneMeter).value.unit.symbol == "K*m"
    ensures MultiplyBy(OneMeter, OneCelsius) == U.Err(U.UnsupportedOperation(SU.DegreeCelsius, "*"))
  {
    SU.CelsiusScale();
  }

  /** (1 K) / (2 m) compares equal to the number 0.5 and has symbol "K/m". */
  lemma DivideScenario()
    ensures DivideBy(OneKelvin, ScalarTimes(2.0, OneMeter)).Ok?
    ensures EqualsScalar(DivideBy(OneKelvin, ScalarTimes(2.0, OneMeter)).value, 0.5)
    ensures DivideBy(OneKelvin, ScalarTimes(2.0, OneMeter)).value.unit.symbol == "K/m"
    ensures DivideBy(OneMeter, OneCelsius) == U.Err(U.UnsupportedOperation(SU.DegreeCelsius, "/"))
  {
    SU.CelsiusScale();
  }

  lemma ToIntScenario()
    ensures ToInt(ScalarTimes(1.49, OneMeter)) == 1
    ensures ToInt(ScalarTimes(1.50, OneMeter)) == 2
  {}

  /** The negative branch of `toInt` subtracts 1/2 before truncating, so a
      negative tie goes away from zero as well. */
  lemma ToIntNegativeTie()
    ensures ToInt(Quantity(SU.Meter, -1.5)) == -2
    ensures ToInt(Quantity(SU.Meter, -1.49)) == -1
  {}

  /** `s - q` is `q - s`. */
  lemma ScalarMinusScenario()
    ensures ScalarMinus(5.0, OneMeter) == Quantity(SU.Meter, -4.0)
  {}

  /** 300 K is reported greater than 30 °C, and their sum is 330 K, because
      kelvin and degree Celsius are `Units.Equals` and the raw values are
      used; by reference value 30 °C is 303.15 K, the larger, and the sum
      converted would be 603.15 K. */
  lemma OffsetIgnoredScenario()
    ensures GreaterThan(Quantity(SU.Kelvin, 300.0), Quantity(SU.DegreeCelsius, 30.0)) == U.Ok(true)
    ensures Reference(Quantity(SU.Kelvin, 300.0)) < Reference(Quantity(SU.DegreeCelsius, 30.0))
    ensures Add(Quantity(SU.Kelvin, 300.0), Quantity(SU.DegreeCelsius, 30.0)) == U.Ok(Quantity(SU.Kelvin, 330.0))
  {
    SU.KelvinEqualsCelsius();
    SU.CelsiusScale();
  }

  /** The default quantity is 0 in the default unit. */
  lemma DefaultQuantityScenario()
    ensures Quantity().unit == U.Unit() && Quantity().unit.dims == DV.Zero
    ensures EqualsScalar(Quantity(), 0.0) && Reference(Quantity()) == 0.0
  {}

  /** 4 m divided by 2 as written has magnitude 1 m, where 2 m is meant; and
      4 °C divided by 2 throws, where 2 °C is meant. */
  lemma DivideByScalarFinding(fmt: U.RealFormat)
    ensures DivideByScalarAsWritten(Quantity(SU.Meter, 4.0), 2.0, fmt).Ok?
    ensures Magnitude(DivideByScalarAsWritten(Quantity(SU.Meter, 4.0), 2.0, fmt).value) == 1.0
    ensures Magnitude(DivideByScalar(Quantity(SU.Meter, 4.0), 2.0)) == 2.0
    ensures DivideByScalarAsWritten(Quantity(SU.DegreeCelsius, 4.0), 2.0, fmt).Err?
    ensures DivideByScalar(Quantity(SU.DegreeCelsius, 4.0), 2.0) == Quantity(SU.DegreeCelsius, 2.0)
  {
    SU.CelsiusScale();
  }
}

=== FILE: examples_unit.dfy ===
/** The unit scenarios of the library's test suite, on the fixture units it
    declares (note its degree Celsius, with offset -273.15). */
module UnitExamples {
  import opened Utils
  import DV = DimensionVector
  import opened Units

  const Meter: Unit := Unit("meter", "m", DV.Make(1))
  const Feet: Unit := Unit("feet", "ft", DV.Make(1), 0.3048)
  const Kelvin: Unit := Unit("Kelvin", "K", DV.Make(0, 0, 0, 0, 1))
  const Celsius: Unit := Unit("degree Celius", "°C", DV.Make(0, 0, 0, 0, 1), 1.0, -273.15)
  const Second: Unit := Unit("second", "s", DV.Make(0, 0, 1))
  const Kilogram: Unit := Unit("kilogram", "kg", DV.Make(0, 1))

  lemma LengthSquared()
    ensures DV.MultiplyBy(DV.Make(1), DV.Make(1)) == DV.Make(2)
  {
    var d := DV.MultiplyBy(DV.Make(1), DV.Make(1));
    forall i | 0 <= i < DV.Count
      ensures d[i] == DV.Make(2)[i]
    {}
  }

  lemma EqualScenario()
    ensures !Units.Equals(Meter, Feet)
    ensures MultiplyBy(Meter, Meter).Ok?
    ensures Units.Equals(Unit("Square meter", "m^2", DV.Make(2)), MultiplyBy(Meter, Meter).value)
    ensures !Units.Equals(Unit("Square meter", "m^2", DV.Make(2)), Meter)
  {
    LengthSquared();
    assert DV.Make(2)[0] != Meter.dims[0];
  }

  lemma IsCompatibleScenario()
    ensures IsCompatibleTo(Meter, Feet)
    ensures !IsCompatibleTo(Meter, Kelvin)
    ensures IsCompatibleTo(Kelvin, Celsius)
  {
    assert Meter.dims[0] != Kelvin.dims[0];
  }

  lemma PowerScenario()
    ensures Power(Meter, 4).Ok?
    ensures Units.Equals(Unit("meter^4", "m^4", DV.Make(4)), Power(Meter, 4).value)
    ensures Power(Meter, 4).value.name == "meter^4" && Power(Meter, 4).value.symbol == "m^4"
    ensures Power(Celsius, 2) == Err(UnsupportedOperation(Celsius, "*"))
  {
    assert Decimal.IntToString(4) == "4";
    var d := DV.Power(DV.Make(1), 4);
    forall i | 0 <= i < DV.Count
      ensures d[i] == DV.Make(4)[i]
    {}
    assert RealPow(1.0, 4) == 1.0 by {
      assert RealPow(1.0, 2) == 1.0;
    }
  }

  lemma MomentumDims()
    ensures DV.DivideBy(DV.MultiplyBy(DV.Make(0, 1), DV.Make(1)), DV.Make(0, 0, 1)) == DV.Make(1, 1, -1)
  {
    var km := DV.MultiplyBy(DV.Make(0, 1), DV.Make(1));
    forall i | 0 <= i < DV.Count
      ensures km[i] == DV.Make(1, 1)[i]
    {}
    var d := DV.DivideBy(km, DV.Make(0, 0, 1));
    forall i | 0 <= i < DV.Count
      ensures d[i] == DV.Make(1, 1, -1)[i]
    {}
  }

  lemma MultiplyScenario()
    ensures MultiplyBy(Meter, Meter).Ok?
    ensures MultiplyBy(Meter, Meter).value.name == "meter*meter"
    ensures MultiplyBy(Meter, Meter).value.symbol == "m*m"
    ensures Units.Equals(Unit("meter*meter", "m*m", DV.Make(2)), MultiplyBy(Meter, Meter).value)
    ensures MultiplyBy(Kilogram, Meter).Ok?
    ensures DivideBy(MultiplyBy(Kilogram, Meter).value, Second).Ok?
    ensures Units.Equals(Unit("Newton", "N", DV.Make(1, 1, -1)), DivideBy(MultiplyBy(Kilogram, Meter).value, Second).value)
    ensures MultiplyBy(Celsius, Kelvin) == Err(UnsupportedOperation(Celsius, "*"))
  {
    LengthSquared();
    MomentumDims();
  }

  lemma VelocityDims()
    ensures DV.DivideBy(DV.Make(1), DV.Make(0, 0, 1)) == DV.Make(1, 0, -1)
  {
    var d := DV.DivideBy(DV.Make(1), DV.Make(0, 0, 1));
    forall i | 0 <= i < DV.Count
      ensures d[i] == DV.Make(1, 0, -1)[i]
    {}
  }

  lemma DivideScenario(fmt: RealFormat)
    ensures DivideBy(Meter, Second).Ok?
    ensures DivideBy(Meter, Second).value.name == "meter/second"
    ensures DivideBy(Meter, Second).value.symbol == "m/s"
    ensures Units.Equals(Unit("meter/second", "m/s", DV.Make(1, 0, -1)), DivideBy(Meter, Second).value)
    ensures DivideByScalar(Celsius, 3.0, fmt) == Err(UnsupportedOperation(Celsius, "/"))
  {
    VelocityDims();
  }

  /** `kelvin + 273.15` equals a degree Celsius declared with offset 273.15. */
  lemma AddScenario(fmt: RealFormat)
    ensures Units.Equals(Unit("degree Celsius", "°C", DV.Make(0, 0, 0, 0, 1), 1.0, 273.15), Add(Kelvin, 273.15, fmt))
  {}

  /** `celsius - 273.15` equals kelvin although its offset is -546.3: the
      comparison does not look at offsets. */
  lemma SubtractScenario(fmt: RealFormat)
    ensures Subtract(Celsius, 273.15, fmt).offset == -546.3
    ensures Units.Equals(Kelvin, Subtract(Celsius, 273.15, fmt))
  {}
}

=== FILE: quantity.dfy ===
/** Quantities: a value together with the unit it is expressed in.
    Comparisons and additive arithmetic bring the right operand into the left
    operand's unit, unless the two units are already `Units.Equals`, in which
    case the raw values are used as they are. Multiplicative arithmetic
    composes the units and never converts. */
module Quantities {
  import opened Utils
  import DV = DimensionVector
  import opened Units

  datatype Quantity = Quantity(unit: Unit := Unit(), value: real := 0.0)

  /** `Quantity()`: zero in the default unit, so its reference value is 0. */
  function DefaultQuantity(): (r: Quantity)
    ensures r.unit == DefaultUnit() && r.value == 0.0
    ensures Reference(r) == 0.0
  {
    Quantity()
  }

  /** The value in the coherent SI unit of the quantity's dimensions, through
      the affine map of its unit. */
  function Reference(q: Quantity): real {
    q.unit.factor * q.value + q.unit.offset
  }

  /** The value on the unit's scale without its zero point; what products and
      quotients of quantities keep. */
  function Magnitude(q: Quantity): real {
    q.unit.factor * q.value
  }

  /** Converting `q` into `t` divides by the factor of `t`, which is only
      defined for a non-zero factor. */
  predicate ConvertibleInto(q: Quantity, t: Unit) {
    q.unit.dims == t.dims ==> t.factor != 0.0
  }

  /** `convertTo(t)`: the same reference value, expressed in `t`. */
  function ConvertTo(q: Quantity, t: Unit): (r: Result<Quantity>)
    requires ConvertibleInto(q, t)
    ensures r.Err? <==> q.unit.dims != t.dims
    ensures r.Err? ==> r.error == IncompatibleUnits(q.unit, t)
    ensures r.Ok? ==> r.value.unit == t && Reference(r.value) == Reference(q)
  {
    match AssertCompatibility(q.unit, t)
    case Fail(e) => Err(e)
    case Pass =>
      var v := ((q.unit.factor * q.value + q.unit.offset) - t.offset) / t.factor;
      assert t.factor * v == Reference(q) - t.offset;
      Ok(Quantity(t, v))
  }

  // ----- Comparison with a bare number: the unit takes no part -----

  function EqualsScalar(q: Quantity, s: real): (r: bool)
    ensures r <==> -DblEpsilon < q.value - s < DblEpsilon
  {
    AreEqual(q.value, s)
  }

  function LessThanScalar(q: Quantity, s: real): (r: bool)
    ensures r <==> q.value < s
  {
    q.value < s
  }

  function GreaterThanScalar(q: Quantity, s: real): (r: bool)
    ensures r <==> q.value > s
  {
    q.value > s
  }

  function NotEqualsScalar(q: Quantity, s: real): (r: bool)
    ensures r <==> q.value <= s - DblEpsilon || q.value >= s + DblEpsilon
  {
    !EqualsScalar(q, s)
  }

  function LessOrEqualScalar(q: Quantity, s: real): (r: bool)
    ensures r <==> q.value < s + DblEpsilon
  {
    LessThanScalar(q, s) || EqualsScalar(q, s)
  }

  function GreaterOrEqualScalar(q: Quantity, s: real): (r: bool)
    ensures r <==> q.value > s - DblEpsilon
  {
    GreaterThanScalar(q, s) || EqualsScalar(q, s)
  }

  /** `toInt`: `(int)(v + 0.5)` when `q >= 0`, `(int)(v - 0.5)` otherwise,
      which rounds half away from zero. */
  function ToInt(q: Quantity): (r: int)
    ensures IsRoundedHalfAwayFromZero(q.value, r)
  {
    if GreaterOrEqualScalar(q, 0.0) then Trunc(q.value + 0.5) else Trunc(q.value - 0.5)
  }

  // ----- Comparison and additive arithmetic between quantities -----

  /** What the binary operations on `a` and `b` need: converting `b` into
      `a`'s unit, which they do unless the units are `Units.Equals`. */
  predicate Combinable(a: Quantity, b: Quantity) {
    !Units.Equals(a.unit, b.unit) ==> ConvertibleInto(b, a.unit)
  }

  /** The right operand's value as the binary operations read it: raw when
      the units are `Units.Equals`, converted into the left unit otherwise. */
  function ValueIn(b: Quantity, a: Quantity): (r: Result<real>)
    requires Combinable(a, b)
    ensures r.Err? <==> a.unit.dims != b.unit.dims
    ensures r.Err? ==> r.error == IncompatibleUnits(b.unit, a.unit)
    ensures Units.Equals(a.unit, b.unit) ==> r == Ok(b.value)
    ensures r.Ok? && !Units.Equals(a.unit, b.unit) ==>
              a.unit.factor * r.value + a.unit.offset == Reference(b)
  {
    if Units.Equals(a.unit, b.unit) then Ok(b.value)
    else
      var c :- ConvertTo(b, a.unit);
      Ok(c.value)
  }

  function Equals(a: Quantity, b: Quantity): (r: Result<bool>)
    requires Combinable(a, b)
    ensures r.Err? <==> a.unit.dims != b.unit.dims
    ensures r.Err? ==> r.error == IncompatibleUnits(b.unit, a.unit)
    ensures r.Ok? ==> r.value == EqualsScalar(a, ValueIn(b, a).value)
  {
    var w :- ValueIn(b, a);
    Ok(EqualsScalar(a, w))
  }

  function LessThan(a: Quantity, b: Quantity): (r: Result<bool>)
    requires Combinable(a, b)
    ensures r.Err? <==> a.unit.dims != b.unit.dims
    ensures r.Err? ==> r.error == IncompatibleUnits(b.unit, a.unit)
    ensures r.Ok? ==> r.value == LessThanScalar(a, ValueIn(b, a).value)
  {
    var w :- ValueIn(b, a);
    Ok(LessThanScalar(a, w))
  }

  function GreaterThan(a: Quantity, b: Quantity): (r: Result<bool>)
    requires Combinable(a, b)
    ensures r.Err? <==> a.unit.dims != b.unit.dims
    ensures r.Err? ==> r.error == IncompatibleUnits(b.unit, a.unit)
    ensures r.Ok? ==> r.value == GreaterThanScalar(a, ValueIn(b, a).value)
  {
    var w :- ValueIn(b, a);
    Ok(GreaterThanScalar(a, w))
  }

  function NotEquals(a: Quantity, b: Quantity): (r: Result<bool>)
    requires Combinable(a, b)
    ensures r.Err? <==> a.unit.dims != b.unit.dims
    ensures r.Err? ==> r.error == IncompatibleUnits(b.unit, a.unit)
    ensures r.Ok? ==> r.value == !Equals(a, b).value
  {
    var e :- Equals(a, b);
    Ok(!e)
  }

  /** `a <= b` is `a < b || a == b`; the second test runs only when the first
      is false, and it throws the same exception the first would. */
  function LessOrEqual(a: Quantity, b: Quantity): (r: Result<bool>)
    requires Combinable(a, b)
    ensures r.Err? <==> a.unit.dims != b.unit.dims
    ensures r.Err? ==> r.error == IncompatibleUnits(b.unit, a.unit)
    ensures r.Ok? ==> r.value == LessOrEqualScalar(a, ValueIn(b, a).value)
  {
    var lt :- LessThan(a, b);
    if lt then Ok(true) else Equals(a, b)
  }

  function GreaterOrEqual(a: Quantity, b: Quantity): (r: Result<bool>)
    requires Combinable(a, b)
    ensures r.Err? <==> a.unit.dims != b.unit.dims
    ensures r.Err? ==> r.error == IncompatibleUnits(b.unit, a.unit)
    ensures r.Ok? ==> r.value == GreaterOrEqualScalar(a, ValueIn(b, a).value)
  {
    var gt :- GreaterThan(a, b);
    if gt then Ok(true) else Equals(a, b)
  }

  /** `add(other)`: the sum in the left unit. */
  function Add(a: Quantity, b: Quantity): (r: Result<Quantity>)
    requires Combinable(a, b)
    ensures r.Err? <==> a.unit.dims != b.unit.dims
    ensures r.Err? ==> r.error == IncompatibleUnits(b.unit, a.unit)
    ensures r.Ok? ==> r.value.unit == a.unit
    ensures r.Ok? && Units.Equals(a.unit, b.unit) ==> r.value.value == a.value + b.value
    ensures r.Ok? && !Units.Equals(a.unit, b.unit) ==>
              Reference(r.value) == Reference(a) + Reference(b) - a.unit.offset
  {
    var w :- ValueIn(b, a);
    Ok(Quantity(a.unit, a.value + w))
  }

  /** `subtract(other)`: the difference in the left unit. */
  function Subtract(a: Quantity, b: Quantity): (r: Result<Quantity>)
    requires Combinable(a, b)
    ensures r.Err? <==> a.unit.dims != b.unit.dims
    ensures r.Err? ==> r.error == IncompatibleUnits(b.unit, a.unit)
    ensures r.Ok? ==> r.value.unit == a.unit
    ensures r.Ok? && Units.Equals(a.unit, b.unit) ==> r.value.value == a.value - b.value
    ensures r.Ok? && !Units.Equals(a.unit, b.unit) ==>
              Reference(r.value) == Reference(a) - Reference(b) + a.unit.offset
  {
    var w :- ValueIn(b, a);
    Ok(Quantity(a.unit, a.value - w))
  }

  // ----- Arithmetic with a bare number -----

  function AddScalar(q: Quantity, s: real): (r: Quantity)
    ensures r.unit == q.unit && r.value == q.value + s
  {
    Quantity(q.unit, q.value + s)
  }

  function SubtractScalar(q: Quantity, s: real): (r: Quantity)
    ensures r.unit == q.unit && r.value == q.value - s
  {
    Quantity(q.unit, q.value - s)
  }

  function MultiplyByScalar(q: Quantity, s: real): (r: Quantity)
    ensures r.unit == q.unit && r.value == q.value * s
  {
    Quantity(q.unit, q.value * s)
  }

  /** `s + q`, the same as `q + s`. */
  function ScalarPlus(s: real, q: Quantity): (r: Quantity)
    ensures r == AddScalar(q, s)
  {
    AddScalar(q, s)
  }

  /** `s - q` is `q.subtract(s)`, that is `q - s`, not `s - q`. */
  function ScalarMinus(s: real, q: Quantity): (r: Quantity)
    ensures r.unit == q.unit && r.value == q.value - s
  {
    SubtractScalar(q, s)
  }

  /** `s * q`, the same as `q * s`. */
  function ScalarTimes(s: real, q: Quantity): (r: Quantity)
    ensures r == MultiplyByScalar(q, s)
  {
    MultiplyByScalar(q, s)
  }

  // ----- Multiplicative arithmetic: units compose, values do not convert -----

  function MultiplyBy(a: Quantity, b: Quantity): (r: Result<Quantity>)
    ensures r.Err? <==> !(Multiplicative(a.unit) && Multiplicative(b.unit))
    ensures r.Err? ==> r == Err(Units.MultiplyBy(a.unit, b.unit).error)
    ensures r.Ok? ==> r.value.unit == Units.MultiplyBy(a.unit, b.unit).value
    ensures r.Ok? ==> r.value.value == a.value * b.value
    ensures r.Ok? ==> Magnitude(r.value) == Magnitude(a) * Magnitude(b)
  {
    var u :- Units.MultiplyBy(a.unit, b.unit);
    Ok(Quantity(u, a.value * b.value))
  }

  /** Division by a quantity whose unit is affine throws before the values
      are divided; otherwise the divisor's value and factor must be non-zero. */
  function DivideBy(a: Quantity, b: Quantity): (r: Result<Quantity>)
    requires Multiplicative(a.unit) && Multiplicative(b.unit) ==> b.value != 0.0 && b.unit.factor != 0.0
    ensures r.Err? <==> !(Multiplicative(a.unit) && Multiplicative(b.unit))
    ensures r.Err? ==> r == Err(Units.DivideBy(a.unit, b.unit).error)
    ensures r.Ok? ==> r.value.unit == Units.DivideBy(a.unit, b.unit).value
    ensures r.Ok? ==> r.value.value * b.value == a.value
    ensures r.Ok? ==> Magnitude(r.value) * Magnitude(b) == Magnitude(a)
  {
    var u :- Units.DivideBy(a.unit, b.unit);
    var v := a.value / b.value;
    assert u.factor * v * (b.unit.factor * b.value) == (u.factor * b.unit.factor) * (v * b.value);
    Ok(Quantity(u, v))
  }

  /** `divideBy(value)` as written: both the unit and the value are divided
      by `s`, so the magnitude is divided by `s` twice, and an affine unit
      throws. */
  function DivideByScalarAsWritten(q: Quantity, s: real, fmt: RealFormat): (r: Result<Quantity>)
    requires Multiplicative(q.unit) ==> s != 0.0
    ensures r.Err? <==> !Multiplicative(q.unit)
    ensures r.Err? ==> r.error == UnsupportedOperation(q.unit, "/")
    ensures r.Ok? ==> r.value.unit == Units.DivideByScalar(q.unit, s, fmt).value
    ensures r.Ok? ==> r.value.unit.dims == q.unit.dims && r.value.unit.factor * s == q.unit.factor
    ensures r.Ok? ==> r.value.value * s == q.value
    ensures r.Ok? ==> Magnitude(r.value) * s * s == Magnitude(q)
  {
    var u :- Units.DivideByScalar(q.unit, s, fmt);
    var v := q.value / s;
    assert u.factor * v * s * s == (u.factor * s) * (v * s);
    Ok(Quantity(u, v))
  }

  /** `divideBy(value)` as `multiplyBy(value)` suggests it was meant: only
      the value is divided, so the magnitude is divided by `s` once and no
      unit is rejected. */
  function DivideByScalar(q: Quantity, s: real): (r: Quantity)
    requires s != 0.0
    ensures r.unit == q.unit && r.value * s == q.value
    ensures Magnitude(r) * s == Magnitude(q)
  {
    Quantity(q.unit, q.value / s)
  }

  /** `s / q`: the unit is `1.0 / q.unit`, the value `s / q.value`. */
  function ScalarDivide(s: real, q: Quantity, fmt: RealFormat): (r: Result<Quantity>)
    requires Multiplicative(q.unit) ==> q.value != 0.0 && q.unit.factor != 0.0
    ensures r.Err? <==> !Multiplicative(q.unit)
    ensures r.Err? ==> r.error == UnsupportedOperation(q.unit, "/")
    ensures r.Ok? ==> r.value.unit == Units.ScalarDivide(1.0, q.unit, fmt).value
    ensures r.Ok? ==> r.value.unit.dims == DV.Power(q.unit.dims, -1)
    ensures r.Ok? ==> r.value.unit.factor * q.unit.factor == 1.0
    ensures r.Ok? ==> r.value.value * q.value == s
    ensures r.Ok? ==> Magnitude(r.value) * Magnitude(q) == s
  {
    var u :- Units.ScalarDivide(1.0, q.unit, fmt);
    var v := s / q.value;
    assert u.factor * v * (q.unit.factor * q.value) == (u.factor * q.unit.factor) * (v * q.value);
    Ok(Quantity(u, v))
  }

  // ----- Laws -----

  /** A value is determined by its reference value when the factor is non-zero. */
  lemma ReferenceDeterminesValue(a: Quantity, b: Quantity)
    requires a.unit == b.unit && a.unit.factor != 0.0
    requires Reference(a) == Reference(b)
    ensures a == b
  {
    assert a.unit.factor * a.value == a.unit.factor * b.value;
  }

  /** Converting into a unit and back returns the original quantity. */
  lemma ConvertRoundTrip(q: Quantity, t: Unit)
    requires q.unit.dims == t.dims && q.unit.factor != 0.0 && t.factor != 0.0
    ensures ConvertTo(q, t).Ok?
    ensures ConvertTo(ConvertTo(q, t).value, q.unit) == Ok(q)
  {
    var c := ConvertTo(q, t).value;
    var back := ConvertTo(c, q.unit).value;
    ReferenceDeterminesValue(back, q);
  }

  /** Converting into the quantity's own unit changes nothing. */
  lemma ConvertToSelf(q: Quantity)
    requires q.unit.factor != 0.0
    ensures ConvertTo(q, q.unit) == Ok(q)
  {
    ReferenceDeterminesValue(ConvertTo(q, q.unit).value, q);
  }

  /** Converting through an intermediate unit is converting directly. */
  lemma ConvertTransitive(q: Quantity, t1: Unit, t2: Unit)
    requires q.unit.dims == t1.dims == t2.dims && t1.factor != 0.0 && t2.factor != 0.0
    ensures ConvertTo(q, t1).Ok?
    ensures ConvertTo(ConvertTo(q, t1).value, t2) == ConvertTo(q, t2)
  {
    var c := ConvertTo(q, t1).value;
    ReferenceDeterminesValue(ConvertTo(c, t2).value, ConvertTo(q, t2).value);
  }

  /** Between units that are not `Units.Equals`, `<` compares reference
      values, provided the left unit has a positive factor. */
  lemma LessThanByReference(a: Quantity, b: Quantity)
    requires a.unit.dims == b.unit.dims && !Units.Equals(a.unit, b.unit) && a.unit.factor > 0.0
    ensures LessThan(a, b) == Ok(Reference(a) < Reference(b))
  {
    var w := ValueIn(b, a).value;
    assert Reference(a) - Reference(b) == a.unit.factor * (a.value - w);
  }

  /** Likewise `>`. */
  lemma GreaterThanByReference(a: Quantity, b: Quantity)
    requires a.unit.dims == b.unit.dims && !Units.Equals(a.unit, b.unit) && a.unit.factor > 0.0
    ensures GreaterThan(a, b) == Ok(Reference(a) > Reference(b))
  {
    var w := ValueIn(b, a).value;
    assert Reference(a) - Reference(b) == a.unit.factor * (a.value - w);
  }

  /** Likewise `==`, whose tolerance on reference values is DBL_EPSILON
      scaled by the left unit's factor. */
  lemma EqualsByReference(a: Quantity, b: Quantity)
    requires a.unit.dims == b.unit.dims && !Units.Equals(a.unit, b.unit) && a.unit.factor > 0.0
    ensures Equals(a, b) == Ok(Abs(Reference(a) - Reference(b)) < DblEpsilon * a.unit.factor)
  {
    var w := ValueIn(b, a).value;
    assert Equals(a, b) == Ok(EqualsScalar(a, w));
    ToleranceScales(a.unit.factor, a.value - w, Reference(a) - Reference(b));
  }

  /** Scaling a difference by a positive factor scales the tolerance with it. */
  lemma ToleranceScales(f: real, d: real, r: real)
    requires f > 0.0 && r == f * d
    ensures (Abs(d) < DblEpsilon) == (Abs(r) < DblEpsilon * f)
  {
    var x, e := Abs(d), DblEpsilon;
    AbsOfScaled(f, d);
    assert Abs(r) == f * x;
    ScaledLess(f, x, e);
    assert e * f == f * e;
  }

  /** A positive factor comes out of an absolute value. */
  lemma AbsOfScaled(f: real, d: real)
    requires f > 0.0
    ensures Abs(f * d) == f * Abs(d)
  {
    if d < 0.0 {
      assert f * -d == -(f * d);
    }
  }

  /** Multiplying both sides by a positive factor keeps a strict order. */
  lemma ScaledLess(f: real, x: real, e: real)
    requires f > 0.0
    ensures (x < e) == (f * x < f * e)
  {
    assert f * e - f * x == f * (e - x);
    if x < e {
      assert f * (e - x) > 0.0;
    } else {
      assert f * (x - e) >= 0.0;
    }
  }

  /** When the units are `Units.Equals` their offsets are ignored: the raw
      values are compared and added, whatever the zero points are. */
  lemma RawValuesWhenUnitsEqual(a: Quantity, b: Quantity)
    requires Units.Equals(a.unit, b.unit)
    ensures LessThan(a, b) == Ok(a.value < b.value)
    ensures GreaterThan(a, b) == Ok(a.value > b.value)
    ensures Equals(a, b) == Ok(AreEqual(a.value, b.value))
    ensures Add(a, b) == Ok(Quantity(a.unit, a.value + b.value))
    ensures Subtract(a, b) == Ok(Quantity(a.unit, a.value - b.value))
  {}

  /** The error of every binary operation on incompatible quantities carries
      the right operand's unit first. */
  lemma IncompatibleOperands(a: Quantity, b: Quantity)
    requires a.unit.dims != b.unit.dims
    ensures Equals(a, b) == Err(IncompatibleUnits(b.unit, a.unit))
    ensures LessThan(a, b) == Err(IncompatibleUnits(b.unit, a.unit))
    ensures GreaterThan(a, b) == Err(IncompatibleUnits(b.unit, a.unit))
    ensures Add(a, b) == Err(IncompatibleUnits(b.unit, a.unit))
    ensures Subtract(a, b) == Err(IncompatibleUnits(b.unit, a.unit))
  {}

  /** Subtracting what was added restores the left operand. */
  lemma AddThenSubtract(a: Quantity, b: Quantity)
    requires a.unit.dims == b.unit.dims && Combinable(a, b)
    ensures Add(a, b).Ok?
    ensures Subtract(Add(a, b).value, b) == Ok(a)
  {
    var sum := Add(a, b).value;
    assert ValueIn(b, sum) == ValueIn(b, a);
  }

  lemma AddScalarThenSubtract(q: Quantity, s: real)
    ensures SubtractScalar(AddScalar(q, s), s) == q
    ensures AddScalar(SubtractScalar(q, s), s) == q
  {}

  /** Comparisons with a bare number read the value alone. */
  lemma ScalarComparisonsIgnoreUnit(q: Quantity, u: Unit, s: real)
    ensures EqualsScalar(q, s) == EqualsScalar(Quantity(u, q.value), s)
    ensures LessThanScalar(q, s) == LessThanScalar(Quantity(u, q.value), s)
    ensures GreaterThanScalar(q, s) == GreaterThanScalar(Quantity(u, q.value), s)
  {}

  /** `toInt` agrees with `std::round`. */
  lemma ToIntIsStdRound(q: Quantity)
    ensures ToInt(q) == StdRound(q.value)
  {
    RoundedHalfAwayFromZeroUnique(q.value, ToInt(q), StdRound(q.value));
  }

  /** Dividing by `s` undoes multiplying by `s`, the unit untouched; the
      division as written does not. */
  lemma MultiplyThenDivideByScalar(q: Quantity, s: real, fmt: RealFormat)
    requires s != 0.0 && Multiplicative(q.unit)
    ensures DivideByScalar(MultiplyByScalar(q, s), s) == q
    ensures DivideByScalarAsWritten(MultiplyByScalar(q, s), s, fmt).Ok?
    ensures Magnitude(DivideByScalarAsWritten(MultiplyByScalar(q, s), s, fmt).value) * s == Magnitude(q)
  {
    var r := DivideByScalarAsWritten(MultiplyByScalar(q, s), s, fmt).value;
    assert Magnitude(r) * s * s == Magnitude(q) * s;
  }
}

=== FILE: standardunits.dfy ===
/** The part of the standard-unit catalog that the scenarios use. Each entry
    is built from the ones before it with the unit algebra, exactly as the
    catalog composes it, and then renamed. Renaming discards the
    intermediate name and symbol, so the formatter used while composing is
    immaterial (see `Units.RenameForgetsLabel`); a blank one is used. */
module StandardUnits {
  import opened Utils
  import DV = DimensionVector
  import opened Units

  const Blank: RealFormat := (x: real) => ""

  const Meter: Unit := Unit("meter", "m", DV.Make(1))
  const Kilogram: Unit := Unit("kilogram", "kg", DV.Make(0, 1))
  const Second: Unit := Unit("second", "s", DV.Make(0, 0, 1))
  const Ampere: Unit := Unit("ampere", "A", DV.Make(0, 0, 0, 1))
  const Kelvin: Unit := Unit("kelvin", "K", DV.Make(0, 0, 0, 0, 1))
  const Mole: Unit := Unit("mole", "mol", DV.Make(0, 0, 0, 0, 0, 1))
  const Candela: Unit := Unit("candela", "cd", DV.Make(0, 0, 0, 0, 0, 0, 1))

  const Decimeter: Unit := Rename("decimeter", "dm", ScalarTimes(0.1, Meter, Blank).value)
  const Thou: Unit := Rename("thou", "th", ScalarTimes(0.0000254, Meter, Blank).value)
  const Inch: Unit := Rename("inch", "in", ScalarTimes(1000.0, Thou, Blank).value)
  const Foot: Unit := Rename("foot", "ft", ScalarTimes(12.0, Inch, Blank).value)

  const DegreeCelsius: Unit := Rename("degree Celsius", "°C", Add(Kelvin, 273.15, Blank))
  const DegreeFahrenheit: Unit :=
    Rename("degree Fahrenheit", "°F", Add(ScalarTimes(5.0 / 9.0, Kelvin, Blank).value, (5.0 / 9.0) * 459.67, Blank))

  const Liter: Unit := Rename("liter", "L", Power(Decimeter, 3).value)
  const Newton: Unit :=
    Rename("newton", "N", MultiplyBy(MultiplyBy(Meter, Kilogram).value, Power(Second, -2).value).value)

  /** Whether a unit is the coherent SI unit of exactly one base dimension. */
  predicate IsBaseUnit(u: Unit, axis: DV.Axis) {
    (forall i :: 0 <= i < DV.Count ==> u.dims[i] == (if i == axis then 1 else 0))
    && u.factor == 1.0 && u.offset == 0.0
  }

  /** The seven base units, each on its own axis. */
  lemma BaseUnits()
    ensures IsBaseUnit(Meter, DV.LengthId) && IsBaseUnit(Kilogram, DV.MassId)
    ensures IsBaseUnit(Second, DV.TimeId) && IsBaseUnit(Ampere, DV.ElectricCurrentId)
    ensures IsBaseUnit(Kelvin, DV.ThermodynamicTemperatureId)
    ensures IsBaseUnit(Mole, DV.AmountOfSubstanceId)
    ensures IsBaseUnit(Candela, DV.LuminousIntensityId)
  {}

  /** foot = 12 inch = 12000 thou = 0.3048 m. */
  lemma FootScale()
    ensures Foot.dims == Meter.dims && Foot.offset == 0.0
    ensures Foot.factor == 0.3048
    ensures Foot.factor == 12.0 * Inch.factor && Inch.factor == 1000.0 * Thou.factor
  {}

  /** degree Celsius is kelvin with its zero point moved by 273.15. */
  lemma CelsiusScale()
    ensures DegreeCelsius.dims == Kelvin.dims
    ensures DegreeCelsius.factor == 1.0 && DegreeCelsius.offset == 273.15
  {}

  /** degree Fahrenheit: 5/9 kelvin per degree, zero at 459.67 degrees below
      absolute zero. */
  lemma FahrenheitScale()
    ensures DegreeFahrenheit.dims == Kelvin.dims
    ensures DegreeFahrenheit.factor == 5.0 / 9.0
    ensures DegreeFahrenheit.offset == (5.0 / 9.0) * 459.67
    ensures DegreeFahrenheit.factor * -459.67 + DegreeFahrenheit.offset == 0.0
  {}

  /** kelvin and degree Celsius are `equals`, although their zero points
      differ. */
  lemma KelvinEqualsCelsius()
    ensures Units.Equals(Kelvin, DegreeCelsius)
    ensures Kelvin.offset != DegreeCelsius.offset
  {}

  /** The affine temperature units reject every multiplicative operation,
      and the exception names them and the operator. */
  lemma AffineTemperaturesRejectProducts(n: int, fmt: RealFormat)
    ensures Power(DegreeCelsius, n) == Err(UnsupportedOperation(DegreeCelsius, "*"))
    ensures Power(DegreeFahrenheit, n) == Err(UnsupportedOperation(DegreeFahrenheit, "*"))
    ensures MultiplyBy(Meter, DegreeCelsius) == Err(UnsupportedOperation(DegreeCelsius, "*"))
    ensures MultiplyBy(DegreeFahrenheit, Meter) == Err(UnsupportedOperation(DegreeFahrenheit, "*"))
    ensures DivideBy(Meter, DegreeCelsius) == Err(UnsupportedOperation(DegreeCelsius, "/"))
    ensures DivideByScalar(DegreeFahrenheit, 3.0, fmt) == Err(UnsupportedOperation(DegreeFahrenheit, "/"))
  {
    CelsiusScale();
    FahrenheitScale();
  }

  lemma CubeOfLength()
    ensures DV.Power(DV.Make(1), 3) == DV.Make(3)
  {
    var d := DV.Power(DV.Make(1), 3);
    forall i | 0 <= i < DV.Count
      ensures d[i] == DV.Make(3)[i]
    {}
  }

  lemma CubeOfTenth()
    ensures RealPow(0.1, 3) == 0.001
  {
    assert RealPow(0.1, 1) == 0.1;
    assert RealPow(0.1, 2) == 0.01;
  }

  /** liter = decimeter^3: length cubed, factor 0.1^3. */
  lemma LiterScale()
    ensures Liter.dims == DV.Make(3) && Liter.factor == 0.001 && Liter.offset == 0.0
  {
    CubeOfLength();
    CubeOfTenth();
  }

  lemma SecondToMinusTwo()
    ensures DV.Power(Second.dims, -2) == DV.Make(0, 0, -2)
  {
    var d := DV.Power(Second.dims, -2);
    forall i | 0 <= i < DV.Count
      ensures d[i] == DV.Make(0, 0, -2)[i]
    {}
  }

  lemma MeterTimesKilogramTimesInverseSquareSecond()
    ensures DV.MultiplyBy(DV.MultiplyBy(Meter.dims, Kilogram.dims), DV.Make(0, 0, -2)) == DV.Make(1, 1, -2)
  {
    var mk := DV.MultiplyBy(Meter.dims, Kilogram.dims);
    forall i | 0 <= i < DV.Count
      ensures mk[i] == DV.Make(1, 1)[i]
    {}
    var n := DV.MultiplyBy(mk, DV.Make(0, 0, -2));
    forall i | 0 <= i < DV.Count
      ensures n[i] == DV.Make(1, 1, -2)[i]
    {}
  }

  /** newton = meter * kilogram * second^-2. */
  lemma NewtonScale()
    ensures Newton.dims == DV.Make(1, 1, -2) && Newton.factor == 1.0 && Newton.offset == 0.0
  {
    assert RealPow(1.0, -2) == 1.0 / RealPow(1.0, 2);
    SecondToMinusTwo();
    MeterTimesKilogramTimesInverseSquareSecond();
  }
}

=== FILE: unit.dfy ===
/** Units of measurement. A unit is an affine map from a value expressed in it
    to the value in the coherent SI unit of the same dimensions:
    reference = factor * value + offset. Units carry a name and a symbol that
    the operations below compose as text. */
module Units {
  import opened Utils
  import Decimal
  import DV = DimensionVector

  datatype Unit = Unit(
    name: string := "",
    symbol: string := "",
    dims: DV.Dimensions := DV.Zero,
    factor: real := 1.0,
    offset: real := 0.0)

  /** `Unit()`: the dimensionless unit without name or symbol whose affine
      map is the identity. */
  function DefaultUnit(): (r: Unit)
    ensures r.name == "" && r.symbol == ""
    ensures forall i :: 0 <= i < DV.Count ==> r.dims[i] == 0
    ensures r.factor == 1.0 && r.offset == 0.0
  {
    Unit()
  }

  /** The two exceptions the unit algebra throws, with the units they carry. */
  datatype Error =
    | IncompatibleUnits(left: Unit, right: Unit)
    | UnsupportedOperation(unit: Unit, operation: string)

  datatype Result<T> = Ok(value: T) | Err(error: Error) {
    predicate IsFailure() {
      Err?
    }

    function PropagateFailure<U>(): Result<U>
      requires Err?
    {
      Err(error)
    }

    function Extract(): T
      requires Ok?
    {
      value
    }
  }

  /** The outcome of one of the `assert...` members: nothing, or the
      exception it throws. */
  datatype Check = Pass | Fail(error: Error)

  /** The decimal text a `std::stringstream` writes for a double. Its digits
      are not modelled; every operation that writes a number into a name or
      symbol takes the formatter as a parameter. */
  type RealFormat = real -> string

  /** Two units that denote the same scale, whatever they are called. */
  predicate SameScale(a: Unit, b: Unit) {
    a.dims == b.dims && a.factor == b.factor && a.offset == b.offset
  }

  /** The constructor that gives a new name and symbol to an existing unit. */
  function Rename(name: string, symbol: string, base: Unit): (r: Unit)
    ensures r.name == name && r.symbol == symbol
    ensures SameScale(r, base)
  {
    Unit(name, symbol, base.dims, base.factor, base.offset)
  }

  /** A unit is printed as its symbol alone. */
  function Render(u: Unit): (s: string)
    ensures s == u.symbol
  {
    u.symbol
  }

  function IsCompatibleTo(a: Unit, b: Unit): (r: bool)
    ensures r <==> a.dims == b.dims
  {
    DV.Equals(a.dims, b.dims)
  }

  function AssertCompatibility(a: Unit, b: Unit): (c: Check)
    ensures c == Pass <==> a.dims == b.dims
    ensures c != Pass ==> c == Fail(IncompatibleUnits(a, b))
  {
    if IsCompatibleTo(a, b) then Pass else Fail(IncompatibleUnits(a, b))
  }

  /** Multiplicative operations accept only units whose offset is
      approximately 0. */
  predicate Multiplicative(u: Unit) {
    AreEqual(u.offset, 0.0)
  }

  function AssertCanMultiply(u: Unit): (c: Check)
    ensures c == Pass <==> -DblEpsilon < u.offset < DblEpsilon
    ensures c != Pass ==> c == Fail(UnsupportedOperation(u, "*"))
  {
    if Multiplicative(u) then Pass else Fail(UnsupportedOperation(u, "*"))
  }

  function AssertCanDivide(u: Unit): (c: Check)
    ensures c == Pass <==> -DblEpsilon < u.offset < DblEpsilon
    ensures c != Pass ==> c == Fail(UnsupportedOperation(u, "/"))
  {
    if Multiplicative(u) then Pass else Fail(UnsupportedOperation(u, "/"))
  }

  /** `power(n)`: the unit raised to an integer power. */
  function Power(u: Unit, n: int): (r: Result<Unit>)
    requires Multiplicative(u) && n < 0 ==> u.factor != 0.0
    ensures r.Err? <==> !Multiplicative(u)
    ensures r.Err? ==> r.error == UnsupportedOperation(u, "*")
    ensures r.Ok? ==> r.value.dims == DV.Power(u.dims, n)
    ensures r.Ok? ==> r.value.factor == RealPow(u.factor, n) && r.value.offset == 0.0
    ensures r.Ok? ==> r.value.name == u.name + "^" + Decimal.IntToString(n)
    ensures r.Ok? ==> r.value.symbol == u.symbol + "^" + Decimal.IntToString(n)
  {
    match AssertCanMultiply(u)
    case Fail(e) => Err(e)
    case Pass =>
      var exponent := Decimal.IntToString(n);
      Ok(Unit(u.name + "^" + exponent, u.symbol + "^" + exponent,
              DV.Power(u.dims, n), RealPow(u.factor, n)))
  }

  /** `equals`: same dimensions and approximately the same factor; the
      offset takes no part. */
  function Equals(a: Unit, b: Unit): (r: bool)
    ensures r <==> a.dims == b.dims && -DblEpsilon < a.factor - b.factor < DblEpsilon
  {
    IsCompatibleTo(a, b) && AreEqual(a.factor, b.factor)
  }

  function LessThan(a: Unit, b: Unit): (r: bool)
    ensures r <==> a.dims == b.dims && a.factor < b.factor
  {
    IsCompatibleTo(a, b) && a.factor < b.factor
  }

  function GreaterThan(a: Unit, b: Unit): (r: bool)
    ensures r <==> a.dims == b.dims && a.factor > b.factor
  {
    IsCompatibleTo(a, b) && a.factor > b.factor
  }

  function NotEquals(a: Unit, b: Unit): (r: bool)
    ensures r <==> a.dims != b.dims || !AreEqual(a.factor, b.factor)
  {
    !Equals(a, b)
  }

  function LessOrEqual(a: Unit, b: Unit): (r: bool)
    ensures r <==> a.dims == b.dims && a.factor < b.factor + DblEpsilon
  {
    LessThan(a, b) || Equals(a, b)
  }

  function GreaterOrEqual(a: Unit, b: Unit): (r: bool)
    ensures r <==> a.dims == b.dims && a.factor > b.factor - DblEpsilon
  {
    GreaterThan(a, b) || Equals(a, b)
  }

  /** `add(v)`: the same scale with the zero point moved by `v`. */
  function Add(u: Unit, v: real, fmt: RealFormat): (r: Unit)
    ensures r.dims == u.dims && r.factor == u.factor && r.offset == u.offset + v
    ensures r.name == "(" + u.name + "+" + fmt(v) + ")"
    ensures r.symbol == u.symbol + "+" + fmt(v)
  {
    Unit("(" + u.name + "+" + fmt(v) + ")", u.symbol + "+" + fmt(v), u.dims, u.factor, u.offset + v)
  }

  function Subtract(u: Unit, v: real, fmt: RealFormat): (r: Unit)
    ensures r.dims == u.dims && r.factor == u.factor && r.offset == u.offset - v
    ensures r.name == "(" + u.name + "-" + fmt(v) + ")"
    ensures r.symbol == u.symbol + "-" + fmt(v)
  {
    Unit("(" + u.name + "-" + fmt(v) + ")", u.symbol + "-" + fmt(v), u.dims, u.factor, u.offset - v)
  }

  /** `s + u`, the same as `u + s`. */
  function ScalarPlus(s: real, u: Unit, fmt: RealFormat): (r: Unit)
    ensures r == Add(u, s, fmt)
  {
    Add(u, s, fmt)
  }

  /** `s - u` is `u.subtract(s)`: the offset goes down by `s`, as in `u - s`;
      it is not a negation of `u`. */
  function ScalarMinus(s: real, u: Unit, fmt: RealFormat): (r: Unit)
    ensures r.offset == u.offset - s
    ensures r == Subtract(u, s, fmt)
  {
    Subtract(u, s, fmt)
  }

  /** `multiplyBy(other)`: `other` is checked before this unit. */
  function MultiplyBy(a: Unit, b: Unit): (r: Result<Unit>)
    ensures r.Err? <==> !(Multiplicative(a) && Multiplicative(b))
    ensures !Multiplicative(b) ==> r == Err(UnsupportedOperation(b, "*"))
    ensures Multiplicative(b) && !Multiplicative(a) ==> r == Err(UnsupportedOperation(a, "*"))
    ensures r.Ok? ==> r.value.dims == DV.MultiplyBy(a.dims, b.dims)
    ensures r.Ok? ==> r.value.factor == a.factor * b.factor && r.value.offset == 0.0
    ensures r.Ok? ==> r.value.name == a.name + "*" + b.name && r.value.symbol == a.symbol + "*" + b.symbol
  {
    match (AssertCanMultiply(b), AssertCanMultiply(a))
    case (Fail(e), _) => Err(e)
    case (Pass, Fail(e)) => Err(e)
    case (Pass, Pass) =>
      Ok(Unit(a.name + "*" + b.name, a.symbol + "*" + b.symbol,
              DV.MultiplyBy(a.dims, b.dims), a.factor * b.factor))
  }

  /** `multiplyBy(value)`: a scaled unit, written `value*name`. */
  function MultiplyByScalar(u: Unit, v: real, fmt: RealFormat): (r: Result<Unit>)
    ensures r.Err? <==> !Multiplicative(u)
    ensures r.Err? ==> r.error == UnsupportedOperation(u, "*")
    ensures r.Ok? ==> r.value.dims == u.dims && r.value.factor == v * u.factor && r.value.offset == 0.0
    ensures r.Ok? ==> r.value.name == fmt(v) + "*" + u.name && r.value.symbol == fmt(v) + "*" + u.symbol
  {
    match AssertCanMultiply(u)
    case Fail(e) => Err(e)
    case Pass => Ok(Unit(fmt(v) + "*" + u.name, fmt(v) + "*" + u.symbol, u.dims, v * u.factor))
  }

  /** `s * u`, the same as `u * s`. */
  function ScalarTimes(s: real, u: Unit, fmt: RealFormat): (r: Result<Unit>)
    ensures r == MultiplyByScalar(u, s, fmt)
  {
    MultiplyByScalar(u, s, fmt)
  }

  /** `divideBy(other)`: the same checks as `multiplyBy`, with operator "/". */
  function DivideBy(a: Unit, b: Unit): (r: Result<Unit>)
    requires Multiplicative(a) && Multiplicative(b) ==> b.factor != 0.0
    ensures r.Err? <==> !(Multiplicative(a) && Multiplicative(b))
    ensures !Multiplicative(b) ==> r == Err(UnsupportedOperation(b, "/"))
    ensures Multiplicative(b) && !Multiplicative(a) ==> r == Err(UnsupportedOperation(a, "/"))
    ensures r.Ok? ==> r.value.dims == DV.DivideBy(a.dims, b.dims)
    ensures r.Ok? ==> r.value.factor * b.factor == a.factor && r.value.offset == 0.0
    ensures r.Ok? ==> r.value.name == a.name + "/" + b.name && r.value.symbol == a.symbol + "/" + b.symbol
  {
    match (AssertCanDivide(b), AssertCanDivide(a))
    case (Fail(e), _) => Err(e)
    case (Pass, Fail(e)) => Err(e)
    case (Pass, Pass) =>
      Ok(Unit(a.name + "/" + b.name, a.symbol + "/" + b.symbol,
              DV.DivideBy(a.dims, b.dims), a.factor / b.factor))
  }

  /** `divideBy(value)`: a scaled unit, written `name/value`. */
  function DivideByScalar(u: Unit, v: real, fmt: RealFormat): (r: Result<Unit>)
    requires Multiplicative(u) ==> v != 0.0
    ensures r.Err? <==> !Multiplicative(u)
    ensures r.Err? ==> r.error == UnsupportedOperation(u, "/")
    ensures r.Ok? ==> r.value.dims == u.dims && r.value.factor * v == u.factor && r.value.offset == 0.0
    ensures r.Ok? ==> r.value.name == u.name + "/" + fmt(v) && r.value.symbol == u.symbol + "/" + fmt(v)
  {
    match AssertCanDivide(u)
    case Fail(e) => Err(e)
    case Pass => Ok(Unit(u.name + "/" + fmt(v), u.symbol + "/" + fmt(v), u.dims, u.factor / v))
  }

  /** `s / u`: the reciprocal unit scaled by `s`, written `s/name`. */
  function ScalarDivide(s: real, u: Unit, fmt: RealFormat): (r: Result<Unit>)
    requires Multiplicative(u) ==> u.factor != 0.0
    ensures r.Err? <==> !Multiplicative(u)
    ensures r.Err? ==> r.error == UnsupportedOperation(u, "/")
    ensures r.Ok? ==> r.value.dims == DV.Power(u.dims, -1)
    ensures r.Ok? ==> r.value.factor * u.factor == s && r.value.offset == 0.0
    ensures r.Ok? ==> r.value.name == fmt(s) + "/" + u.name && r.value.symbol == fmt(s) + "/" + u.symbol
  {
    match AssertCanDivide(u)
    case Fail(e) => Err(e)
    case Pass => Ok(Unit(fmt(s) + "/" + u.name, fmt(s) + "/" + u.symbol, DV.Power(u.dims, -1), s / u.factor))
  }

  // ----- Laws of the unit algebra -----

  lemma EqualsReflexive(u: Unit)
    ensures Equals(u, u)
  {}

  lemma EqualsSymmetric(a: Unit, b: Unit)
    ensures Equals(a, b) == Equals(b, a)
  {}

  /** Equal units are compatible. */
  lemma EqualsImpliesCompatible(a: Unit, b: Unit)
    requires Equals(a, b)
    ensures IsCompatibleTo(a, b)
  {}

  /** Moving the zero point keeps a unit "equal" to the original. */
  lemma EqualsIgnoresOffset(u: Unit, v: real, fmt: RealFormat)
    ensures Equals(u, Add(u, v, fmt))
    ensures v != 0.0 ==> !SameScale(u, Add(u, v, fmt))
  {}

  /** For compatible units at least one of `<`, `==`, `>` holds and `<`, `>`
      never hold together; for incompatible units none holds. */
  lemma OrderingTrichotomy(a: Unit, b: Unit)
    ensures IsCompatibleTo(a, b) ==> LessThan(a, b) || Equals(a, b) || GreaterThan(a, b)
    ensures !(LessThan(a, b) && GreaterThan(a, b))
    ensures !IsCompatibleTo(a, b) ==> !LessThan(a, b) && !Equals(a, b) && !GreaterThan(a, b)
  {}

  /** `a <= b` and `b >= a` agree, and so do `a < b` and `b > a`. */
  lemma OrderingDuality(a: Unit, b: Unit)
    ensures LessOrEqual(a, b) == GreaterOrEqual(b, a)
    ensures LessThan(a, b) == GreaterThan(b, a)
  {}

  /** Adding then subtracting the same shift restores the scale. */
  lemma AddThenSubtract(u: Unit, v: real, fmt: RealFormat)
    ensures SameScale(Subtract(Add(u, v, fmt), v, fmt), u)
  {}

  /** The name and symbol of a base unit do not reach the renamed unit. */
  lemma RenameForgetsLabel(name: string, symbol: string, a: Unit, b: Unit)
    requires SameScale(a, b)
    ensures Rename(name, symbol, a) == Rename(name, symbol, b)
  {}

  /** The default unit is neutral for `*`. */
  lemma DefaultIsNeutral(u: Unit)
    requires Multiplicative(u)
    ensures MultiplyBy(u, Unit()).Ok?
    ensures MultiplyBy(u, Unit()).value.dims == u.dims
    ensures MultiplyBy(u, Unit()).value.factor == u.factor
  {
    DV.MultiplyByZero(u.dims);
  }

  /** Products of units commute up to name; when both are affine the
      exception names the right operand, so it depends on the order. */
  lemma MultiplyByCommutes(a: Unit, b: Unit)
    ensures MultiplyBy(a, b).Ok? == MultiplyBy(b, a).Ok?
    ensures MultiplyBy(a, b).Ok? ==> SameScale(MultiplyBy(a, b).value, MultiplyBy(b, a).value)
    ensures !Multiplicative(a) && !Multiplicative(b) ==> MultiplyBy(a, b) != MultiplyBy(b, a) || a == b
  {
    DV.MultiplyByCommutative(a.dims, b.dims);
  }

  /** Dividing by `b` undoes multiplying by `b`. */
  lemma MultiplyThenDivide(a: Unit, b: Unit)
    requires Multiplicative(a) && Multiplicative(b) && b.factor != 0.0
    ensures MultiplyBy(a, b).Ok?
    ensures DivideBy(MultiplyBy(a, b).value, b).Ok?
    ensures DivideBy(MultiplyBy(a, b).value, b).value.dims == a.dims
    ensures DivideBy(MultiplyBy(a, b).value, b).value.factor == a.factor
  {
    var p := MultiplyBy(a, b).value;
    assert Multiplicative(p);
    DV.DivideByUndoesMultiplyBy(a.dims, b.dims);
    var q := DivideBy(p, b).value;
    assert q.factor * b.factor == a.factor * b.factor;
  }

  /** Dividing by a non-zero scalar undoes multiplying by it, up to the
      name; an offset within tolerance of zero is dropped on the way. */
  lemma MultiplyByScalarThenDivide(u: Unit, v: real, fmt: RealFormat)
    requires Multiplicative(u) && v != 0.0
    ensures MultiplyByScalar(u, v, fmt).Ok?
    ensures DivideByScalar(MultiplyByScalar(u, v, fmt).value, v, fmt).Ok?
    ensures var w := DivideByScalar(MultiplyByScalar(u, v, fmt).value, v, fmt).value;
      w.dims == u.dims && w.factor == u.factor && w.offset == 0.0
    ensures u.offset == 0.0 ==> SameScale(DivideByScalar(MultiplyByScalar(u, v, fmt).value, v, fmt).value, u)
  {
    var p := MultiplyByScalar(u, v, fmt).value;
    assert Multiplicative(p);
    var w := DivideByScalar(p, v, fmt).value;
    assert w.factor * v == u.factor * v;
  }

  lemma PowerOne(u: Unit)
    requires u.offset == 0.0
    ensures Power(u, 1).Ok? && SameScale(Power(u, 1).value, u)
  {
    DV.PowerOne(u.dims);
  }

  /** `power(2)` is the unit multiplied by itself. */
  lemma PowerTwoIsSquare(u: Unit)
    requires Multiplicative(u)
    ensures Power(u, 2).Ok? && MultiplyBy(u, u).Ok?
    ensures SameScale(Power(u, 2).value, MultiplyBy(u, u).value)
  {
    DV.PowerSuccessor(u.dims, 1);
    DV.PowerOne(u.dims);
  }

  /** Raising to `n` and then to `m` is raising to `n * m`. */
  lemma PowerOfPower(u: Unit, n: int, m: int)
    requires Multiplicative(u) && u.factor != 0.0
    ensures Power(u, n).Ok? && Power(Power(u, n).value, m).Ok? && Power(u, n * m).Ok?
    ensures SameScale(Power(Power(u, n).value, m).value, Power(u, n * m).value)
  {
    var p := Power(u, n).value;
    assert Multiplicative(p);
    DV.PowerOfPower(u.dims, n, m);
    PowMul(u.factor, n, m);
  }

  /** `1 / u` is `u` to the power -1. */
  lemma ReciprocalIsPowerMinusOne(u: Unit, fmt: RealFormat)
    requires Multiplicative(u) && u.factor != 0.0
    ensures ScalarDivide(1.0, u, fmt).Ok? && Power(u, -1).Ok?
    ensures SameScale(ScalarDivide(1.0, u, fmt).value, Power(u, -1).value)
  {
    assert RealPow(u.factor, 1) == u.factor;
    PowNegate(u.factor, 1);
  }
}

=== FILE: utils.dfy ===
/** The numeric helpers every layer relies on: the absolute tolerance used by
    all equality tests, truncation and rounding to integers, and integer
    powers. IEEE-754 doubles are idealised as mathematical reals. */
module Utils {

  /** DBL_EPSILON of IEEE-754 binary64, that is 2^-52, as an exact real. */
  const DblEpsilon: real := 1.0 / 4503599627370496.0

  function Abs(x: real): real {
    if x < 0.0 then -x else x
  }

  /** Two doubles are "equal" when they differ by strictly less than
      DBL_EPSILON: an absolute threshold, not one relative to their size. */
  function AreEqual(a: real, b: real): (r: bool)
    ensures r <==> -DblEpsilon < a - b < DblEpsilon
  {
    Abs(a - b) < DblEpsilon
  }

  lemma AreEqualReflexive(a: real)
    ensures AreEqual(a, a)
  {}

  lemma AreEqualSymmetric(a: real, b: real)
    ensures AreEqual(a, b) <==> AreEqual(b, a)
  {}

  /** The threshold is absolute: shifting both operands by the same amount
      never changes the verdict. */
  lemma AreEqualShiftInvariant(a: real, b: real, c: real)
    ensures AreEqual(a, b) <==> AreEqual(a + c, b + c)
  {
    assert (a + c) - (b + c) == a - b;
  }

  /** The tolerance is not transitive, so it is not an equivalence relation. */
  lemma AreEqualNotTransitive()
    ensures AreEqual(0.0, DblEpsilon / 2.0)
    ensures AreEqual(DblEpsilon / 2.0, DblEpsilon)
    ensures !AreEqual(0.0, DblEpsilon)
  {}

  /** The C++ conversion of a floating-point value to `int`: truncation
      toward zero. */
  function Trunc(x: real): (r: int)
    ensures 0.0 <= x ==> r as real <= x < r as real + 1.0
    ensures x < 0.0 ==> r as real - 1.0 < x <= r as real
  {
    if x >= 0.0 then x.Floor else -((-x).Floor)
  }

  /** `r` is an integer nearest to `x`, and a tie goes to the integer
      farther from zero. */
  ghost predicate IsRoundedHalfAwayFromZero(x: real, r: int) {
    && -0.5 <= x - r as real <= 0.5
    && (x - r as real == 0.5 ==> x < 0.0)
    && (x - r as real == -0.5 ==> 0.0 < x)
  }

  /** At most one integer is the half-away-from-zero rounding of a real. */
  lemma RoundedHalfAwayFromZeroUnique(x: real, r1: int, r2: int)
    requires IsRoundedHalfAwayFromZero(x, r1)
    requires IsRoundedHalfAwayFromZero(x, r2)
    ensures r1 == r2
  {
  }

  /** `std::round`: the nearest integer, halfway cases away from zero. */
  function StdRound(x: real): (r: int)
    ensures IsRoundedHalfAwayFromZero(x, r)
  {
    if x >= 0.0 then (x + 0.5).Floor else -((0.5 - x).Floor)
  }

  /** `pow(x, n)` for an integer exponent `n`; a negative exponent is the
      reciprocal of the positive power, so it needs a non-zero base. */
  function RealPow(x: real, n: int): (r: real)
    requires x != 0.0 || n >= 0
    ensures x != 0.0 ==> r != 0.0
    ensures x > 0.0 ==> r > 0.0
    decreases if n < 0 then 1 else 0, if n < 0 then -n else n
  {
    if n == 0 then 1.0
    else if n > 0 then x * RealPow(x, n - 1)
    else 1.0 / RealPow(x, -n)
  }

  lemma {:induction false} PowAddNat(x: real, a: nat, b: nat)
    ensures RealPow(x, a + b) == RealPow(x, a) * RealPow(x, b)
  {
    if a > 0 {
      PowAddNat(x, a - 1, b);
      var p, q := RealPow(x, a - 1), RealPow(x, b);
      assert RealPow(x, a + b) == x * (p * q);
      assert RealPow(x, a) == x * p;
      MulAssociative(x, p, q);
    }
  }

  lemma MulAssociative(x: real, p: real, q: real)
    ensures x * (p * q) == (x * p) * q
  {}

  lemma PowNegate(x: real, n: int)
    requires x != 0.0
    ensures RealPow(x, -n) == 1.0 / RealPow(x, n)
  {
    if n < 0 {
      var p := RealPow(x, -n);
      assert RealPow(x, n) == 1.0 / p;
      assert p != 0.0;
    }
  }

  lemma InverseOfProduct(p: real, q: real)
    requires p != 0.0 && q != 0.0
    ensures 1.0 / (p * q) == (1.0 / p) * (1.0 / q)
  {}

  lemma ProductThenQuotient(p: real, q: real)
    requires q != 0.0
    ensures p == (p * q) * (1.0 / q)
  {}

  lemma QuotientOfProduct(p: real, q: real)
    requires p != 0.0 && q != 0.0
    ensures 1.0 / q == p * (1.0 / (p * q))
  {}

  lemma PowAddBothNegative(x: real, a: int, b: int)
    requires x != 0.0 && a < 0 && b < 0
    ensures RealPow(x, a + b) == RealPow(x, a) * RealPow(x, b)
  {
    var p, q := RealPow(x, -a), RealPow(x, -b);
    PowAddNat(x, -a, -b);
    assert RealPow(x, -(a + b)) == p * q by { assert -(a + b) == -a + -b; }
    PowNegate(x, -(a + b));
    PowNegate(x, -a);
    PowNegate(x, -b);
    InverseOfProduct(p, q);
  }

  lemma PowAddMixedNonNegative(x: real, a: int, b: int)
    requires x != 0.0 && b < 0 <= a + b
    ensures RealPow(x, a + b) == RealPow(x, a) * RealPow(x, b)
  {
    var c, d := a + b, -b;
    var s, q := RealPow(x, c), RealPow(x, d);
    assert RealPow(x, b) == 1.0 / q;
    PowAddNat(x, c, d);
    assert RealPow(x, a) == s * q by { assert c + d == a; }
    CancelFactor(RealPow(x, a), RealPow(x, b), s, q);
  }

  /** `(s * q) * (1 / q)` is `s`, with the two factors given by name. */
  lemma CancelFactor(p: real, r: real, s: real, q: real)
    requires q != 0.0 && p == s * q && r == 1.0 / q
    ensures s == p * r
  {
    ProductThenQuotient(s, q);
  }

  lemma PowAddMixedNegative(x: real, a: int, b: int)
    requires x != 0.0 && b < 0 <= a && a + b < 0
    ensures RealPow(x, a + b) == RealPow(x, a) * RealPow(x, b)
  {
    var c, d := -(a + b), -b;
    var p, t := RealPow(x, a), RealPow(x, c);
    assert RealPow(x, a + b) == 1.0 / t;
    PowAddNat(x, a, c);
    assert a + c == d;
    assert RealPow(x, d) == p * t;
    assert RealPow(x, b) == 1.0 / (p * t);
    QuotientOfProduct(p, t);
  }

  /** Exponents add under multiplication, whatever their signs. */
  lemma PowAdd(x: real, a: int, b: int)
    requires x != 0.0
    ensures RealPow(x, a + b) == RealPow(x, a) * RealPow(x, b)
  {
    if a >= 0 && b >= 0 {
      PowAddNat(x, a, b);
    } else if a < 0 && b < 0 {
      PowAddBothNegative(x, a, b);
    } else if a >= 0 {
      if a + b >= 0 { PowAddMixedNonNegative(x, a, b); } else { PowAddMixedNegative(x, a, b); }
    } else {
      if a + b >= 0 { PowAddMixedNonNegative(x, b, a); } else { PowAddMixedNegative(x, b, a); }
      assert b + a == a + b;
    }
  }

  lemma MulStep(n: int, m: int)
    ensures n + n * (m - 1) == n * m
  {}

  lemma PowMulStep(x: real, n: int, m: int, k: int)
    requires x != 0.0 && m > 0
    requires RealPow(RealPow(x, n), m - 1) == RealPow(x, k)
    ensures RealPow(RealPow(x, n), m) == RealPow(x, n + k)
  {
    var y := RealPow(x, n);
    assert RealPow(y, m) == y * RealPow(y, m - 1);
    PowAdd(x, n, k);
  }

  lemma {:induction false} PowMulNat(x: real, n: int, m: nat)
    requires x != 0.0
    ensures RealPow(RealPow(x, n), m) == RealPow(x, n * m)
  {
    if m > 0 {
      PowMulNat(x, n, m - 1);
      PowMulStep(x, n, m, n * (m - 1));
      MulStep(n, m);
    }
  }

  /** A power of a power multiplies the exponents. */
  lemma PowMul(x: real, n: int, m: int)
    requires x != 0.0
    ensures RealPow(RealPow(x, n), m) == RealPow(x, n * m)
  {
    if m >= 0 {
      PowMulNat(x, n, m);
    } else {
      var y := RealPow(x, n);
      var j := -m;
      var k := n * j;
      PowMulNat(x, n, j);
      assert RealPow(y, m) == 1.0 / RealPow(x, k);
      PowNegate(x, k);
      assert -k == n * m;
    }
  }

  /** `r` is `a` rounded half away from zero at scale `f`: `r * f` is a whole
      number, it is the half-away-from-zero rounding of `a * f`, and so `r` is
      within half of `1 / f` of `a`. */
  ghost predicate IsRoundingAtScale(a: real, f: real, r: real) {
    && (r * f).Floor as real == r * f
    && IsRoundedHalfAwayFromZero(a * f, (r * f).Floor)
    && Abs(r - a) * f <= 0.5
  }

  /** Scaling back a rounded product: if `k` rounds `a * f`, then `k / f`
      rounds `a` at scale `f`. */
  lemma ScaledRounding(a: real, f: real, k: int)
    requires f > 0.0
    requires IsRoundedHalfAwayFromZero(a * f, k)
    ensures IsRoundingAtScale(a, f, k as real / f)
  {
    var r := k as real / f;
    assert r * f == k as real;
    assert (k as real).Floor == k;
    assert (r - a) * f == k as real - a * f;
    if r - a >= 0.0 {
      assert Abs(r - a) * f == k as real - a * f;
    } else {
      assert Abs(r - a) * f == a * f - k as real;
    }
  }

  /** `std::round(a * f) / f`: `a` rounded half away from zero at scale
      `f`. */
  function RoundAtScale(a: real, f: real): (r: real)
    requires f > 0.0
    ensures IsRoundingAtScale(a, f, r)
  {
    var k := StdRound(a * f);
    ScaledRounding(a, f, k);
    k as real / f
  }

  /** A value already rounded at scale `f` is its own rounding there. */
  lemma RoundAtScaleIdempotent(a: real, f: real)
    requires f > 0.0
    ensures RoundAtScale(RoundAtScale(a, f), f) == RoundAtScale(a, f)
  {
    var r := RoundAtScale(a, f);
    RoundingAtScaleIsFixed(a, f, r);
    RoundAtScaleUnfold(r, f);
  }

  /** One unfolding of `RoundAtScale`, stated apart so that callers do not
      have to unfold it among its nonlinear postconditions. */
  lemma RoundAtScaleUnfold(a: real, f: real)
    requires f > 0.0
    ensures RoundAtScale(a, f) == StdRound(a * f) as real / f
  {
  }

  /** Whatever rounds to a whole number of `1 / f` steps is left unchanged
      by rounding at scale `f` again. */
  lemma RoundingAtScaleIsFixed(a: real, f: real, r: real)
    requires f > 0.0 && IsRoundingAtScale(a, f, r)
    ensures StdRound(r * f) as real / f == r
  {
    var k := (r * f).Floor;
    assert r * f == k as real;
    assert IsRoundedHalfAwayFromZero(r * f, k);
    RoundedHalfAwayFromZeroUnique(r * f, k, StdRound(r * f));
  }

  /** `Utils::round(a, d)`: `a` rounded half away from zero to `d` decimal
      places, as `std::round(a * 10^d) / 10^d`; so it is within half a unit
      of the last kept decimal of `a`. */
  function Round(a: real, decimals: int): (r: real)
    ensures IsRoundingAtScale(a, RealPow(10.0, decimals), r)
  {
    RoundAtScale(a, RealPow(10.0, decimals))
  }

  /** Rounding an already rounded value to the same number of decimals
      changes nothing. */
  lemma RoundIdempotent(a: real, decimals: int)
    ensures Round(Round(a, decimals), decimals) == Round(a, decimals)
  {
    RoundAtScaleIdempotent(a, RealPow(10.0, decimals));
  }
}
